=== FILE: README.md ===
# youtube-dl button — a Dafny model of its core

youtube-dl button is a browser add-on plus a small native helper program that
drives youtube-dl. This project models the parts of both that carry logic, as
immutable datatypes and pure functions, and proves properties of them.

Browser side:
- the background script's job queue and job state machine (`Jobs`, `Queue`);
- the popup's field resolution, per-domain settings, file names and row order (`Popup`);
- the options page's permission bookkeeping, backup file name and form defaulting (`Options`);
- the settings written on a fresh install (`Settings`) and the migration from 1.1.2 and earlier (`Updates`).

Native side:
- the command line built from job properties (`Arguments`);
- the runner's log-line classifier (`Classifier`);
- the runner's life cycle: start, post-processing, exit codes and cancel (`Runner`);
- the native-messaging length-prefix framing (`Framing`);
- the host's dispatch and job table (`NativeHost`).

`Values` and `Text` hold the shared helpers: JavaScript's falsy strings, trimming, anchored literal patterns, split/join and decimals.

Modelling choices:
- **One step per handler.** Every handler is one step from a state to a new state, plus what it sent and what it answered. A thrown exception is a result value (`Threw`, `Crashed`), not a precondition.
- **`Job.create()` is atomic.** It sets the job active inside a storage promise. The model posts `create-job` and marks the job active in one step (`Queue.Launch`), so a job counts as active as soon as it is dispatched.
- **Stored props merged into create-job.** `Job.create()` posts `Object.assign({}, stored props, job props)`. The stored `props` value is a parameter of every handler that dispatches (`Queue.StoredProps`). Only a legacy props object adds named keys. The current layout stores a list, whose index keys the native side does not read, so a create-job message then carries no `exePath` or `customArgs` (`Queue.UpdateExeInheritsStored`).
- **Environment as parameters.** The outside world is passed in: the concurrent-jobs limit, `Path.Combine` (`combine`), `Environment.ExpandEnvironmentVariables` (`expand`), and whether creating the cookie jar or spawning a process throws (`Launch`).
- **Processes are events.** Process output and process exit are events delivered to a runner one at a time. The .NET `Output`/`Ended` events a runner raises come back as a list. The host turns them into `job-output`/`job-ended` messages.
- **No update-executable directive.** `ToArguments` has no directive for updating the executable and no cookie argument; `updateExe` is carried in the job record and never read.
- **Raw post-process exit code.** When the post-processing script exits, the runner reports the script's raw exit code (YoutubeDlRunner.cs line 209). The 0/253 mapping computed on the line before is unused. The model reports the raw code.
- **Disconnect clears only the port.** `onPortDisconnect` changes no job's state. `Queue.DisconnectStrandsActiveJob` shows the consequence: an active job stays active, and cancelling it throws.
- **Where the limit comes from.** The background script reads the concurrent-jobs limit from `addon.concurrentJobsLimit`, which only the legacy settings layout has. The options page writes a top-level `concurrentJobsLimit`. The queue takes the limit as a parameter either way.
- **Cancel disposes too.** `cancel-job` on the native side also disposes the runner. Its downloader's later exit therefore reads as code 1: no post-processing, nothing written, no crash (`NativeHost.CancelledJobExitIsQuiet`).

## Model

| member | source | states |
|---|---|---|
| Jobs.NewJob | src/background/background.js:96-102 | a new job carries the given id and props, is waiting, has no cancel request, no output and no destination |
| Jobs.Append | src/background/background.js:171-173 | the line goes to the end of the output log and nothing else about the job changes |
| Jobs.Cancel | src/background/background.js:140-154 | the request is always recorded; a waiting job becomes cancelled with "Job cancelled." appended and no message due; any other job keeps its state and output and a cancel-job message is due |
| Jobs.End | src/background/background.js:159-166 | a recorded cancel request wins (cancelled, line appended); otherwise errored exactly when the code is positive and ended exactly when it is not, output untouched |
| Jobs.EndIsTerminal | src/background/background.js:159-166 | every reported end lands in ended, errored or cancelled |
| Jobs.CancelThenEndIsCancelled | src/background/background.js:140-166 | a job whose cancel was requested resolves to cancelled whatever exit code arrives |
| Queue.Initial | src/background/background.js:3-7 | the queue starts empty, with the id counter at 1 and no port |
| Queue.CountStateUpdate | src/background/background.js:193-200 | replacing one job changes a state's count only by that job's own contribution |
| Queue.CountStateWitness | src/background/background.js:193-200 | a state's count is positive exactly when some job is in that state |
| Queue.FindById | src/background/background.js:205-207 | the answer is the first position holding the id, and none exactly when no job has it |
| Queue.LastWaiting | src/background/background.js:212-221 | the answer is a waiting job with no waiting job after it, and none exactly when no job waits |
| Queue.NextWaitingIsOldest | src/background/background.js:212-221 | on a queue with descending ids the job picked next has the lowest id among waiting jobs |
| Queue.Merge | src/background/background.js:117-123 | every key the job carries is posted with the job's value; a key it lacks takes a legacy object's value; a stored list or nothing adds no key, so exePath and customArgs are then absent |
| Queue.Launch | src/background/background.js:114-135 | dispatching opens the port, posts exactly one create-job with the job's id and the stored props merged under the job's props, and marks only that job active |
| Queue.LaunchCount | src/background/background.js:114-129 | dispatching a waiting job raises the active count by exactly one |
| Queue.CreateJob | src/background/background.js:237-247 | the new job takes the counter's id and goes to the front, the counter advances, and it is dispatched exactly when the active count is below the limit |
| Queue.UpdateExe | src/background/background.js:284-292 | the update job goes to the front flagged updateExe and is dispatched whatever the active count, with the stored props merged under its own |
| Queue.UpdateExeInheritsStored | src/background/background.js:117-123 | the update job's message takes exePath, save folder, template, format and custom arguments from a legacy object, and none of them from a stored list |
| Queue.PopupJobKeepsOwnKeys | src/background/background.js:117-123 | a job carrying save folder, template and format posts them whatever is stored; the stored value only adds exePath and custom arguments |
| Queue.CancelJob | src/background/background.js:252-259 | unknown id answers false and changes nothing; a known job is cancelled in place, with a cancel-job post only when it was not waiting, and a throw when the port is gone |
| Queue.RetryJob | src/background/background.js:264-279 | only an errored or cancelled job goes back to waiting (dispatched below the limit); cancel request and output are kept; any found job is answered, an unknown id answers false |
| Queue.FilterById | src/background/background.js:229 | a job is kept exactly when it has the requested id |
| Queue.GetJobs | src/background/background.js:226-232 | nothing changes; all jobs are answered unless a truthy id is given, then exactly the jobs with that id |
| Queue.GetJobsAtMostOne | src/background/background.js:226-232 | with descending ids a filtered get-jobs answers at most one job |
| Queue.KeepPending | src/background/background.js:297-303 | a job is kept exactly when it is in the list and waiting or active |
| Queue.KeepPendingMultiset | src/background/background.js:297-303 | every waiting or active job survives with all its copies, every other job disappears |
| Queue.KeepPendingAppend | src/background/background.js:297-303 | cleaning works piece by piece, so the surviving jobs keep their relative order |
| Queue.KeepPendingSorted | src/background/background.js:297-303 | the surviving jobs keep their descending order |
| Queue.KeepPendingCounts | src/background/background.js:297-303 | cleaning keeps the number of waiting and of active jobs |
| Queue.CleanJobs | src/background/background.js:297-306 | exactly the waiting and active jobs remain and are answered |
| Queue.DestinationOf | src/background/background.js:318-332 | a recognised destination is never empty, and the line is then exactly one of the three case-sensitive shapes with that name in place: the merge line, the destination line or the already-downloaded line |
| Queue.NoBracketNoDestination | src/background/background.js:318-332 | a line that does not open with `[` yields no destination, so job-output leaves the job's destination unchanged |
| Queue.DestinationPatterns | src/background/background.js:318-332 | each of the three line shapes yields the file name it carries, the merge pattern first and the already-downloaded pattern only when the destination pattern does not apply |
| Queue.JobOutput | src/background/background.js:311-334 | a known job gets the line appended and its destination replaced only when a pattern matches; unknown ids change nothing; nothing is posted |
| Queue.JobEndedSpec | src/background/background.js:339-366 | the job found ends in a terminal state; at most one job is dispatched, the oldest waiting one, exactly when the active count is below the limit; the port closes exactly when nothing was dispatched, nothing is active and the handler's job variable is empty |
| Queue.PortDisconnected | src/background/background.js:86-91 | a disconnect forgets the port and leaves every job and the counter as they were |
| Queue.DisconnectStrandsActiveJob | src/background/background.js:140-154 | after a disconnect, cancelling an active job records the request, posts nothing, leaves it active and throws |
| Queue.UpdateKeepsValid | src/background/background.js:96-101 | changing one job without touching its id keeps ids unique, positive, below the counter and descending |
| Queue.CreateKeepsValid | src/background/background.js:237-290 | create-job and update-exe keep ids unique, below the counter and descending |
| Queue.CancelRetryKeepValid | src/background/background.js:252-279 | cancel-job and retry-job keep the id invariant |
| Queue.OutputKeepsValid | src/background/background.js:311-334 | job-output keeps the id invariant |
| Queue.JobEndedKeepsValid | src/background/background.js:339-366 | job-ended keeps the id invariant |
| Queue.CleanKeepsValid | src/background/background.js:297-306 | clean-jobs keeps the id invariant |
| Queue.CreateRespectsLimit | src/background/background.js:242-244 | create-job never takes the active count above the limit |
| Queue.CancelAndOutputRespectLimit | src/background/background.js:252-334 | cancel-job and job-output never take the active count above the limit |
| Queue.RetryRespectsLimit | src/background/background.js:272-274 | retry-job never takes the active count above the limit |
| Queue.CleanRespectsLimit | src/background/background.js:297-306 | clean-jobs never takes the active count above the limit |
| Queue.JobEndedRespectsLimit | src/background/background.js:346-353 | job-ended never takes the active count above the limit |
| Queue.UpdateExeExceedsLimit | src/background/background.js:284-292 | update-exe with the limit already reached still dispatches, taking the count above it |
| Queue.TwoJobScenario | src/background/background.js:339-353 | with a limit of one the second job waits and is dispatched when the first ends, and the port stays open |
| Arguments.DefaultProps | native-app/YoutubeDlProps.cs:13-29 | a message naming no property saves to the desktop folder with restrict-filenames off and nothing else set |
| Arguments.ItemsSpec | native-app/YoutubeDlProps.cs:36-58 | the URL is always last; restrict-filenames, output, format and custom arguments each appear exactly when their property is set, carrying its value, at most once and in that fixed order |
| Arguments.ItemsLength | native-app/YoutubeDlProps.cs:38-58 | the list holds the URL plus one element per enabled option |
| Arguments.ArgumentList | native-app/YoutubeDlProps.cs:36-60 | the text list renders each element in order, the URL text last |
| Arguments.BareUrl | native-app/YoutubeDlProps.cs:58-60 | with no option set the command line is the URL alone |
| Arguments.AllOptions | native-app/YoutubeDlProps.cs:38-60 | with every option set the arguments are the five texts in their fixed order |
| Classifier.IndexOf | native-app/YoutubeDlRunner.cs:239 | the first position holding the file, or -1 exactly when it is absent |
| Classifier.RemoveFirst | native-app/YoutubeDlRunner.cs:239 | only the first equal file is removed; an absent file leaves the list unchanged |
| Classifier.RemoveFirstMultiset | native-app/YoutubeDlRunner.cs:239 | removal takes away exactly one copy when there is one and keeps every other file's count |
| Classifier.OrdinaryLineKeepsFiles | native-app/YoutubeDlRunner.cs:215-250 | a line that none of the four patterns can start with leaves the file list alone |
| Classifier.DestinationLineAppends | native-app/YoutubeDlRunner.cs:222-233 | a destination line appends its file right after the known files |
| Classifier.AlreadyLineAppends | native-app/YoutubeDlRunner.cs:229-233 | an already-downloaded line appends its file last, keeping the known files in front |
| Classifier.DeleteLineRemoves | native-app/YoutubeDlRunner.cs:236-240 | a delete line removes the first copy of its file and does nothing else |
| Classifier.MergerLineAppends | native-app/YoutubeDlRunner.cs:243-247 | a merger line appends its file and does nothing else |
| Text.Trim | native-app/YoutubeDlRunner.cs:219 | a trimmed line is a slice of the input with only white space cut off either end, and neither starts nor ends with white space |
| Text.TrimUnique | native-app/YoutubeDlRunner.cs:219 | any slice reached by cutting only white space off the ends, and itself free of white space at both ends, is the trimmed line: trimming removes exactly the leading and trailing white runs |
| Text.TrimIdempotent | native-app/YoutubeDlRunner.cs:261 | trimming twice is trimming once |
| Text.MatchBetween | native-app/YoutubeDlRunner.cs:12-29 | a capture means the line is prefix, a non-empty dot-only group and suffix, in that order (case ignored as asked) |
| Text.MatchBetweenComplete | native-app/YoutubeDlRunner.cs:12-29 | every line of the shape prefix, group, suffix is matched, with that group |
| Text.LastIndexOf | src/popup/popup.js:556-561 | the last position holding the character, or -1 when none does |
| Text.Split | src/background/updates.js:57-58 | splitting yields at least one piece and no piece holds the separator |
| Text.SplitJoin | src/background/updates.js:57-58 | joining the pieces with the separator gives back the version string |
| Text.SplitFirst | src/background/updates.js:57-58 | a separator-free head is split off as the first piece |
| Text.SplitThree | src/background/updates.js:57-58 | three separator-free pieces joined by the separator split back into those three pieces, as a dotted version does |
| Text.NatToDecimal | src/options/options.js:254-256 | the decimal text is non-empty digits with no leading zero |
| Text.DecimalRoundTrip | src/options/options.js:254-256 | reading the decimal text back gives the number |
| Text.PadStart2 | src/options/options.js:255-256 | short text is left-padded with zeros to two characters; longer text is unchanged |
| Values.Or | src/popup/popup.js:364-366 | the left value when truthy, otherwise the right one |
| Values.OrEmpty | src/popup/popup.js:54-56 | the value when truthy, "" exactly when it is falsy |
| Runner.NewRunner | native-app/Program.cs:108-112 | a new runner has the job's id and props, no files, no processes and no cancel |
| Runner.Raise | native-app/YoutubeDlRunner.cs:165-169 | a cancelled runner delivers no events; otherwise all of them |
| Runner.Start | native-app/YoutubeDlRunner.cs:59-110 | throws when cancelled or already started; otherwise jar created first and removed last on every path, downloader spawned with the expanded path and the built arguments, and a failure yields one error line then Ended(253) |
| Runner.PostProcess | native-app/YoutubeDlRunner.cs:115-156 | throws exactly when cancelled; otherwise announces and spawns the script on the quoted files, and a failure yields the error line then Ended(253) |
| Runner.Quote | native-app/YoutubeDlRunner.cs:125 | every file wrapped in double quotes, in order |
| Runner.PrimaryExited | native-app/YoutubeDlRunner.cs:187-200 | a clean exit with a script chains into post-processing; otherwise Ended(0) for a clean exit and Ended(253) for any other, with a disposed handle counted as 1 |
| Runner.PostExited | native-app/YoutubeDlRunner.cs:205-210 | the script's raw exit code is reported, 1 for a disposed handle |
| Runner.PrimaryOutput | native-app/YoutubeDlRunner.cs:215-252 | null or empty output does nothing; other output is trimmed, classified into the file list and forwarded once |
| Runner.PostOutput | native-app/YoutubeDlRunner.cs:257-265 | script output is trimmed and forwarded once and never touches the file list |
| Runner.Cancel | native-app/YoutubeDlRunner.cs:161-182 | the first call sets the flag and kills exactly the processes still running; later calls do nothing |
| Runner.Dispose | native-app/YoutubeDlRunner.cs:267-274 | only the downloader's handle is dropped |
| Runner.CancelIdempotent | native-app/YoutubeDlRunner.cs:161-182 | cancelling twice is cancelling once |
| Runner.CancelledRunnerIsSilent | native-app/YoutubeDlRunner.cs:161-169 | after cancel no event is delivered and Start and PostProcess throw |
| Runner.StartOnceOnly | native-app/YoutubeDlRunner.cs:59-69 | a new runner starts without throwing; once a process exists a second start throws |
| Runner.CancelledCleanExitThrows | native-app/YoutubeDlRunner.cs:187-193 | a clean exit after cancel with a script configured throws from PostProcess |
| Runner.PrimaryExitMapping | native-app/YoutubeDlRunner.cs:194-199 | with no script, exactly one Ended is raised, 0 exactly for code 0 and 253 exactly for any other |
| Framing.Encode | native-app/Program.cs:62-79 | a frame is four header bytes followed by the body unchanged |
| Framing.Int32LE | native-app/Program.cs:46 | the header reads as a signed 32-bit value |
| Framing.Zeros | native-app/Program.cs:44-49 | a fresh buffer holds only zero bytes |
| Framing.ReadFrame | native-app/Program.cs:39-56 | a read consumes input whenever there is any, and a message is never empty nor longer than an array allows |
| Framing.HeaderRoundTrip | native-app/Program.cs:73-76 | the written header reads back as the length |
| Framing.FrameRoundTrip | native-app/Program.cs:44-55 | reading a written frame of length 1 to 2^31-1 returns its body and leaves what follows |
| Framing.EmptyFrameSkipped | native-app/Program.cs:47 | a zero-length frame yields no message and consumes only its header |
| Framing.NegativeLengthSkipsHeader | native-app/Program.cs:46-47 | a header with the top bit set yields no message and consumes only the header |
| Framing.EndOfInputReadsNothing | native-app/Program.cs:23-53 | at end of input a read yields no message and consumes nothing, so the loop keeps reading nothing |
| Framing.ReadAllEncodeAll | native-app/Program.cs:24-32 | the main loop reads back every non-empty message written, in order, nothing lost or invented |
| NativeHost.Deliver | native-app/Program.cs:114-132 | one message is written per event, after what was written before: job-output with the line for an output event, job-ended with the code for an end event, both under the runner's job id; only the runner's own handle and table entries may change, by disposal and removal |
| NativeHost.DeliverEnded | native-app/Program.cs:114-132 | when any delivered event is an end, the runner's id leaves the table and its handle is disposed; when every event is output, the table and the runners are unchanged |
| NativeHost.Apply | native-app/Program.cs:114-136 | an exception from a runner call ends the host; otherwise the runner's new state and events are applied |
| NativeHost.OnMessage | native-app/Program.cs:90-100 | every topic other than create-job and cancel-job leaves the host unchanged |
| NativeHost.CancelJobReply | native-app/Program.cs:150-174 | exactly one job-ended for the requested id: 254 with the entry removed and its runner cancelled, or 255 with nothing else changed |
| NativeHost.CreateJobLaunched | native-app/Program.cs:106-144 | a started runner is entered under its id and the only message is job-started with the arguments |
| NativeHost.CreateJobFailed | native-app/Program.cs:106-144 | a failed start writes the error line and job-ended 253 before job-started, and the id leaves the table again |
| NativeHost.DuplicateIdOrphansRunner | native-app/Program.cs:122-134 | a duplicate id keeps the first runner, but the second's end removes the id, so a later cancel answers 255 |
| NativeHost.CancelledRunnerWritesNothing | native-app/Program.cs:114-132 | a cancelled runner's output and exits write nothing |
| NativeHost.CancelledJobExitIsQuiet | native-app/Program.cs:158-166 | after cancel-job the downloader's exit writes nothing and does not crash the host |
| NativeHost.DeliverKeepsValid | native-app/Program.cs:122-132 | delivering events keeps every table entry pointing at an uncancelled runner with that id |
| NativeHost.OnMessageKeepsValid | native-app/Program.cs:90-174 | both message handlers keep the table invariant |
| NativeHost.EventsKeepValid | native-app/Program.cs:114-132 | every process event keeps the table invariant |
| Popup.NewPerDomainSettings | src/popup/popup.js:51-57 | a missing record is empty and every falsy field becomes "" |
| Popup.EmptyIffNothingTruthy | src/popup/popup.js:59-61 | a record is empty exactly when none of its three fields is truthy |
| Popup.SaveDomain | src/popup/popup.js:207-215 | an empty record deletes the host's key, any other replaces it, an unparsable URL saves nothing, and other hosts are untouched |
| Popup.SaveLoadedIsIdentity | src/popup/popup.js:207-215 | saving the record loaded for a host changes nothing |
| Popup.Resolve | src/popup/popup.js:364-366 | the form value when non-empty, else the set's value when truthy, else the fallback |
| Popup.CreateJob | src/popup/popup.js:344-381 | nothing is sent without an executable; a throw exactly when an inheriting set has no stored set to read and some field reaches it; a sent request carries the URL and three non-empty fields resolved form > set > fallback |
| Popup.SentIffResolved | src/popup/popup.js:357-373 | a request is sent exactly when all three resolved fields are non-empty |
| Popup.FullFormIsSentAsTyped | src/popup/popup.js:364-380 | a fully filled form is sent exactly as typed |
| Popup.AudioInheritsDefault | src/popup/popup.js:357-366 | the built-in audio set takes folder and template from the default set and keeps its own audio format |
| Popup.FileName | src/popup/popup.js:555-564 | the text after the last backslash; only without one, after the last slash; with neither, the whole path |
| Popup.FileNameOfWindowsPath | src/popup/popup.js:555-564 | a Windows path shows its last component |
| Popup.InsertPosition | src/popup/popup.js:517-518 | the new row goes before the first row with a smaller id, or at the end |
| Popup.InsertRow | src/popup/popup.js:517-520 | the rows gain exactly the new id, and a list in descending order stays descending |
| Popup.InsertKeepsDescending | src/popup/popup.js:517-520 | a new id placed after every larger row and before every smaller one keeps the rows descending |
| Options.NewCookieOrigins | src/options/options.js:7-12 | the YouTube origin starts out as one to release and nothing is requested |
| Options.Without | src/options/options.js:18 | the origin disappears and every other origin keeps its count |
| Options.WithoutAppend | src/options/options.js:18 | filtering works piece by piece, so the kept origins keep their order |
| Options.RequestOrigin | src/options/options.js:17-20 | the origin leaves the release list, other origins stay, and it joins the end of the requested list |
| Options.ApplyPermissions | src/options/options.js:25-46 | one request for the requested origins plus cookies answered by the user, or, with nothing requested, a cookie release answered true; then the remaining origins released exactly when there are any |
| Options.RemoveAllPermissions | src/options/options.js:51-56 | one release of cookies and of every origin either list holds |
| Options.SaveWithCookies | src/options/options.js:213-222 | ticking the box requests the YouTube origin and cookies; a refusal releases them again and unticks the box |
| Options.SaveWithoutCookies | src/options/options.js:213-222 | an unticked box releases cookies and the YouTube origin and stays unticked |
| Options.YearComponent | src/options/options.js:254 | the year is written as dash-free digits that read back as the year |
| Options.PaddedDecimal | src/options/options.js:255-256 | a padded month or day still reads back as its number |
| Options.ParseDateComposed | src/options/options.js:253-257 | three dash-free digit components joined by dashes read back as their values, the month shifted back to 0-based |
| Options.BackupFileNameRoundTrip | src/options/options.js:253-257 | the date is recovered from the backup file name |
| Options.BackupFileNameInjective | src/options/options.js:253-257 | two different dates never share a backup file name |
| Options.PopulateGeneral | src/options/options.js:86-91 | the form shows the path or "", a stored non-zero limit as stored and 1 when it is missing or 0, and the cookie box ticked exactly when stored true |
| Options.GeneralSaveLoad | src/options/options.js:229-234 | the general settings saved from the form are shown again as saved, a saved limit of 0 coming back as 1 |
| Options.PropsToForm | src/options/options.js:112-127 | falsy text becomes ""; the inherit box is ticked when the field is absent and follows it otherwise, but never for the first set |
| Options.FormToProps | src/options/options.js:155-164 | saving stores every field as the form holds it, with the inherit box as a boolean |
| Options.LoadSaveLoad | src/options/options.js:112-164 | loading what was saved from a form shows the same form again |
| Options.BuiltInSetsInForm | src/options/options.js:112-127 | the default set never shows as inheriting, the audio set does, and a set without the field does |
| Settings.ResetToDefaults | src/background/updates.js:8-34 | a fresh install writes an empty path, limit 1, cookies off, and the Default then Audio sets, only Audio inheriting |
| Updates.VersionNumber | src/background/updates.js:57-59 | a component is a number exactly when it is all digits |
| Updates.DecimalComponent | src/background/updates.js:57-59 | a number's decimal text reads back as that number and holds no dot |
| Updates.ShouldMigrateExactly | src/background/updates.js:57-63 | migration runs for a version a.b.c exactly when it is 1.1.0, 1.1.1 or 1.1.2 |
| Updates.ConvertSwitchSet | src/background/updates.js:75-80 | name, folder and format carry over, the icon only when truthy, and nothing else is set |
| Updates.ConvertAll | src/background/updates.js:74-80 | every switch set is converted, in order |
| Updates.LimitOrOne | src/background/updates.js:72 | the stored limit unless missing or zero, then 1 |
| Updates.Migrate | src/background/updates.js:64-106 | limit, cookies and audio format come from the addon object when there is one; without one the path is cleared, cookies are off and the limit is undefined; a legacy props object supplies the path and becomes a Default set holding its folder, format and template (the built-in format and template when falsy), its custom arguments or "", no icon and no inheritance, then the built-in Audio set with the addon's audio format, then the converted switch sets; anything else becomes the two built-in sets |
| Updates.AddonSettingsLostWithoutPropsObject | src/background/updates.js:104-106 | without a legacy props object the addon's audio format and switch sets are discarded |
| Updates.MigrationMatchesFreshInstall | src/background/updates.js:82-106 | with nothing to carry over the migration writes the fresh-install sets and path but not its limit |

## Left out

- ProcessKiller.cs: recursive killing of a process tree. It is the abstract `KillTree` effect of `Runner.Cancel`.
- Real processes, asynchronous stream reading, event subscription, the console streams, the write lock and the concurrent dictionary's thread safety. Handlers run one at a time.
- JSON encoding and decoding. Message bodies are opaque bytes in `Framing`. A message whose props are null is not modelled.
- NativeHost.OnMessage: a message with no `topic` key makes `message["topic"].Value<string>()` throw (native-app/Program.cs:91), which ends the host; a topic that is JSON null matches no case and is ignored. The model reads both as an absent topic and ignores the message, so it does not model the crash on a missing key.
- A create-job whose props name no executable. `Process.Start` would throw on it, and the model folds that into the `launch` failure of `Runner.Start`.
- `CreateCookieJar`, `RemoveCookieJar` and `PostProcessScript` are used by the runner but not declared in YoutubeDlProps.cs; where they are defined is not part of this model. The jar steps are effects whose failure is a parameter, and the script path is one more nullable property.
- `Path.Combine`, `ExpandEnvironmentVariables` and the desktop folder are parameters (`combine`, `expand`, `desktop`).
- Every browser API: storage, permissions, runtime messaging, `connectNative`, icons. Also promises, the DOM, event listeners, URL parsing (the host is an input of `Popup.SaveDomain`) and `JSON.parse` of legacy switch sets.
- output.js, scrape.js and the build script. They are UI, page scraping and tooling.
- Framing.ReadAll: the source's main loop (`while (true)`, native-app/Program.cs:23-31) never ends. At end of input every read fills no header byte, reads a length of 0 and returns null, so the host spins reading null messages after the browser closes its input. The model's list of reads stops when the input is used up; `Framing.EndOfInputReadsNothing` shows what every further read would give.
- Framing.ReadFrame: a read that returns fewer bytes than asked is modelled as reading everything available and leaving the rest of the buffer zero. Reads that stop early while more input exists are not modelled.
- Text.MatchBetween: case-insensitive matching folds ASCII letters only. .NET folds all of Unicode.
- Updates.VersionNumber: JavaScript `Number` is modelled for strings of decimal digits only. Signs, surrounding white space, exponents and hexadecimal forms all read as not-a-number here.
- Values.Truthy: `null` and `undefined` are one value, `None`. Options.PropsToForm therefore ticks the inherit box for a stored `null`, where the page would leave it unticked.
- Queue.JobEnded: the handler's precondition that the port is open holds because the message arrives through it. A reply after a disconnect is not modelled.
- Queue.CancelJob: the TypeError when the port is gone is a reply value, not an exception that escapes to the browser.
- The `updateExe` flag is carried in the job record and the create-job message only. No native code shown reads it.
- Queue.Merge: the posted props hold `exePath`, `saveIn`, `template`, `videoUrl`, `format`, `customArgs` and `updateExe`. Any other key of a stored legacy object is dropped, so a `restrictFilenames` stored there would not reach the native side in the model. A stored list's index keys are not represented.

=== FILE: arguments.dfy ===
/**
 * `YoutubeDlProps` of the native application and `ToArguments`, the pure
 * function from job properties to the downloader's command line.
 *
 * `Path.Combine` is a parameter (`combine`).  `PostProcessScript`, read by the
 * runner, is not declared in the props class shown; it is kept here as one
 * more nullable property.
 */
module Arguments {
  import opened Values
  import Text

  datatype Props = Props(
    exePath: StrVal,
    saveIn: StrVal,
    template: StrVal,
    videoUrl: StrVal,
    format: StrVal,
    customArgs: StrVal,
    restrictFilenames: bool,
    postProcessScript: StrVal)

  /** The properties of a `create-job` message that names none of them: `SaveIn` is the desktop folder, `RestrictFilenames` false. */
  function DefaultProps(desktop: string): (p: Props)
    ensures p.saveIn == Some(desktop) && !p.restrictFilenames
    ensures p.exePath.None? && p.template.None? && p.videoUrl.None? && p.format.None? && p.customArgs.None?
  {
    Props(None, Some(desktop), None, None, None, None, false, None)
  }

  /** One element of the argument list, before it is rendered as text. */
  datatype ArgItem = RestrictFlag | OutputArg(path: string) | FormatArg(format: string) | CustomArgs(text: string) | Url(url: string)

  /** The fixed position of each kind of element. */
  function Rank(a: ArgItem): nat {
    match a
    case RestrictFlag => 0
    case OutputArg(_) => 1
    case FormatArg(_) => 2
    case CustomArgs(_) => 3
    case Url(_) => 4
  }

  /** `String.IsNullOrEmpty(v)` is false. */
  predicate Given(v: StrVal) { Truthy(v) }

  /** The path passed to `--output`: `Path.Combine(SaveIn ?? "", Template ?? "")`. */
  function OutputPath(p: Props, combine: (string, string) -> string): string {
    combine(p.saveIn.GetOr(""), p.template.GetOr(""))
  }

  /** Ranks strictly increase along the list, so every kind appears at most once and in its fixed place. */
  predicate InRankOrder(items: seq<ArgItem>) {
    forall i, j :: 0 <= i < j < |items| ==> Rank(items[i]) < Rank(items[j])
  }

  /** `a` in front of `rest` when `present`. */
  function Prepend(present: bool, a: ArgItem, rest: seq<ArgItem>): seq<ArgItem> {
    (if present then [a] else []) + rest
  }

  /** Prepending an element that ranks below all of `rest` keeps rank order. */
  lemma PrependKeepsOrder(present: bool, a: ArgItem, rest: seq<ArgItem>)
    requires InRankOrder(rest) && forall i :: 0 <= i < |rest| ==> Rank(a) < Rank(rest[i])
    ensures var r := Prepend(present, a, rest);
      InRankOrder(r) && forall i :: 0 <= i < |r| ==> Rank(a) <= Rank(r[i])
  {
    if present {
      var r := [a] + rest;
      forall i, j | 0 <= i < j < |r|
        ensures Rank(r[i]) < Rank(r[j])
      {
        assert r[j] == rest[j - 1];
        if i > 0 { assert r[i] == rest[i - 1]; }
      }
    } else {
      assert Prepend(present, a, rest) == rest;
    }
  }

  /** The four optional elements, each kept when its flag is set, followed by the URL. */
  function Chain(has0: bool, has1: bool, has2: bool, has3: bool, out: string, format: string, custom: string, url: string): seq<ArgItem> {
    Prepend(has0, RestrictFlag, Prepend(has1, OutputArg(out), Prepend(has2, FormatArg(format), Prepend(has3, CustomArgs(custom), [Url(url)]))))
  }

  lemma ChainOrder(has0: bool, has1: bool, has2: bool, has3: bool, out: string, format: string, custom: string, url: string)
    ensures InRankOrder(Chain(has0, has1, has2, has3, out, format, custom, url))
  {
    var e := [Url(url)];
    var d := Prepend(has3, CustomArgs(custom), e);
    PrependKeepsOrder(has3, CustomArgs(custom), e);
    var c := Prepend(has2, FormatArg(format), d);
    PrependKeepsOrder(has2, FormatArg(format), d);
    var b := Prepend(has1, OutputArg(out), c);
    PrependKeepsOrder(has1, OutputArg(out), c);
    PrependKeepsOrder(has0, RestrictFlag, b);
  }

  /** `x` is in `Prepend(present, a, rest)` when it is the prepended element or is in `rest`. */
  lemma PrependHas(present: bool, a: ArgItem, rest: seq<ArgItem>, x: ArgItem)
    ensures x in Prepend(present, a, rest) <==> (present && x == a) || x in rest
  {
  }

  /** What the chain holds: each optional element whose flag is set, and the URL. */
  lemma ChainHas(has0: bool, has1: bool, has2: bool, has3: bool, out: string, format: string, custom: string, url: string, x: ArgItem)
    ensures x in Chain(has0, has1, has2, has3, out, format, custom, url) <==>
      || (has0 && x == RestrictFlag) || (has1 && x == OutputArg(out)) || (has2 && x == FormatArg(format))
      || (has3 && x == CustomArgs(custom)) || x == Url(url)
  {
    var e := [Url(url)];
    var d := Prepend(has3, CustomArgs(custom), e);
    PrependHas(has3, CustomArgs(custom), e, x);
    var c := Prepend(has2, FormatArg(format), d);
    PrependHas(has2, FormatArg(format), d, x);
    var b := Prepend(has1, OutputArg(out), c);
    PrependHas(has1, OutputArg(out), c, x);
    PrependHas(has0, RestrictFlag, b, x);
  }

  /** Each optional element is in the chain exactly when its flag is set, and the URL ends it. */
  lemma ChainMembers(has0: bool, has1: bool, has2: bool, has3: bool, out: string, format: string, custom: string, url: string)
    ensures var r := Chain(has0, has1, has2, has3, out, format, custom, url);
      && |r| >= 1 && r[|r| - 1] == Url(url)
      && (RestrictFlag in r <==> has0)
      && (OutputArg(out) in r <==> has1)
      && (FormatArg(format) in r <==> has2)
      && (CustomArgs(custom) in r <==> has3)
      && (forall x :: x in r ==> x in {RestrictFlag, OutputArg(out), FormatArg(format), CustomArgs(custom), Url(url)})
  {
    var r := Chain(has0, has1, has2, has3, out, format, custom, url);
    ChainHas(has0, has1, has2, has3, out, format, custom, url, RestrictFlag);
    ChainHas(has0, has1, has2, has3, out, format, custom, url, OutputArg(out));
    ChainHas(has0, has1, has2, has3, out, format, custom, url, FormatArg(format));
    ChainHas(has0, has1, has2, has3, out, format, custom, url, CustomArgs(custom));
    forall x | x in r
      ensures x in {RestrictFlag, OutputArg(out), FormatArg(format), CustomArgs(custom), Url(url)}
    {
      ChainHas(has0, has1, has2, has3, out, format, custom, url, x);
    }
  }

  /** The elements `ToArguments` adds, in the order it adds them. */
  function Items(p: Props, combine: (string, string) -> string): seq<ArgItem> {
    Chain(p.restrictFilenames, Given(p.saveIn) || Given(p.template), Given(p.format), Given(p.customArgs),
          OutputPath(p, combine), p.format.GetOr(""), p.customArgs.GetOr(""), p.videoUrl.GetOr(""))
  }

  /**
   * What `ToArguments` adds: the video URL always, last; each option exactly
   * when its property is set, carrying that property's value; every kind at
   * most once, in the fixed order restrict-filenames, output, format, custom
   * arguments, URL.
   */
  lemma ItemsSpec(p: Props, combine: (string, string) -> string)
    ensures var r := Items(p, combine);
      && |r| >= 1 && r[|r| - 1] == Url(p.videoUrl.GetOr(""))
      && InRankOrder(r)
      && (RestrictFlag in r <==> p.restrictFilenames)
      && (OutputArg(OutputPath(p, combine)) in r <==> Given(p.saveIn) || Given(p.template))
      && (FormatArg(p.format.GetOr("")) in r <==> Given(p.format))
      && (CustomArgs(p.customArgs.GetOr("")) in r <==> Given(p.customArgs))
      && (forall x :: x in r ==> x in {RestrictFlag, OutputArg(OutputPath(p, combine)), FormatArg(p.format.GetOr("")),
                                     CustomArgs(p.customArgs.GetOr("")), Url(p.videoUrl.GetOr(""))})
  {
    var has1 := Given(p.saveIn) || Given(p.template);
    var out, format, custom, url := OutputPath(p, combine), p.format.GetOr(""), p.customArgs.GetOr(""), p.videoUrl.GetOr("");
    ChainOrder(p.restrictFilenames, has1, Given(p.format), Given(p.customArgs), out, format, custom, url);
    ChainMembers(p.restrictFilenames, has1, Given(p.format), Given(p.customArgs), out, format, custom, url);
  }

  function Count(b: bool): nat { if b then 1 else 0 }

  /** The list holds the video URL plus one element per enabled option. */
  lemma ItemsLength(p: Props, combine: (string, string) -> string)
    ensures |Items(p, combine)| == 1 + Count(p.restrictFilenames) + Count(Given(p.saveIn) || Given(p.template))
                                     + Count(Given(p.format)) + Count(Given(p.customArgs))
  {
  }

  /** The text of one element. */
  function Render(a: ArgItem): string {
    match a
    case RestrictFlag => "--restrict-filenames"
    case OutputArg(path) => "--output \"" + path + "\""
    case FormatArg(f) => "--format " + f
    case CustomArgs(t) => t
    case Url(u) => u
  }

  /** The argument list as text, element by element. */
  function ArgumentList(p: Props, combine: (string, string) -> string): (r: seq<string>)
    ensures |r| == |Items(p, combine)|
    ensures forall i :: 0 <= i < |r| ==> r[i] == Render(Items(p, combine)[i])
    ensures r[|r| - 1] == p.videoUrl.GetOr("")
  {
    var items := Items(p, combine);
    ItemsSpec(p, combine);
    seq(|items|, i requires 0 <= i < |items| => Render(items[i]))
  }

  /** `ToArguments`: the elements joined with single spaces. */
  function ToArguments(p: Props, combine: (string, string) -> string): string {
    Text.Join(" ", ArgumentList(p, combine))
  }

  /** With nothing optional set, the command line is the video URL alone. */
  lemma BareUrl(p: Props, combine: (string, string) -> string)
    requires !p.restrictFilenames && !Given(p.saveIn) && !Given(p.template) && !Given(p.format) && !Given(p.customArgs)
    ensures ToArguments(p, combine) == p.videoUrl.GetOr("")
  {
    ItemsLength(p, combine);
    ItemsSpec(p, combine);
  }

  /** Every option set: the five elements in their fixed order. */
  lemma AllOptions(p: Props, combine: (string, string) -> string)
    requires p.restrictFilenames && Given(p.saveIn) && Given(p.format) && Given(p.customArgs)
    ensures ArgumentList(p, combine) ==
      ["--restrict-filenames", "--output \"" + OutputPath(p, combine) + "\"", "--format " + p.format.value,
       p.customArgs.value, p.videoUrl.GetOr("")]
  {
    var items := Items(p, combine);
    assert items == [RestrictFlag, OutputArg(OutputPath(p, combine)), FormatArg(p.format.value),
                     CustomArgs(p.customArgs.value), Url(p.videoUrl.GetOr(""))];
  }
}

=== FILE: framing.dfy ===
/**
 * Native-messaging framing of the native host: every message is a 4-byte
 * little-endian length followed by that many bytes of JSON.  The JSON body is
 * opaque bytes here.
 */
module Framing {
  import opened Values

  type Byte = b: int | 0 <= b < 256

  /** Body lengths are .NET array lengths, so they stay below 2^31. */
  const MaxLength: nat := 0x8000_0000

  const TwoTo32: int := 0x1_0000_0000

  /** `n >> 8` for a non-negative `n`. */
  function Shift8(n: nat): nat { n / 0x100 }

  /** The header `Write` emits: `(len >> 8k) & 0xFF` for k = 0..3, with `len >> 8k` as `k` shifts by 8. */
  function Header(len: nat): (h: seq<Byte>)
    requires len < MaxLength
    ensures |h| == 4
  {
    [len % 256, Shift8(len) % 256, Shift8(Shift8(len)) % 256, Shift8(Shift8(Shift8(len))) % 256]
  }

  /** `Write`: the header, then the body. */
  function Encode(body: seq<Byte>): (frame: seq<Byte>)
    requires |body| < MaxLength
    ensures |frame| == 4 + |body| && frame[4..] == body
  {
    Header(|body|) + body
  }

  /** `BitConverter.ToInt32`: four bytes read as a little-endian two's-complement integer. */
  function Int32LE(h: seq<Byte>): (v: int)
    requires |h| == 4
    ensures -0x8000_0000 <= v < 0x8000_0000
  {
    var u: int := h[0] as int + 0x100 * h[1] as int + 0x1_0000 * h[2] as int + 0x100_0000 * h[3] as int;
    if u >= 0x8000_0000 then u - TwoTo32 else u
  }

  /** `n` zero bytes: what a freshly allocated buffer holds where a read delivered nothing. */
  function Zeros(n: nat): (z: seq<Byte>)
    ensures |z| == n && forall i :: 0 <= i < n ==> z[i] == 0
  {
    if n == 0 then [] else Zeros(n - 1) + [0]
  }

  function Min(a: int, b: int): int { if a <= b then a else b }

  /** The result of one `ReadMessage`: the body when the length was positive, and the unread input. */
  datatype Read = Read(message: Option<seq<Byte>>, rest: seq<Byte>)

  /**
   * `ReadMessage`: reads up to four header bytes (missing ones stay zero),
   * decodes the length and, when it is positive, reads up to that many body
   * bytes into a zeroed buffer of that length.  A length of zero or less
   * yields no message.
   */
  function ReadFrame(input: seq<Byte>): (r: Read)
    ensures |r.rest| <= |input|
    ensures input != [] ==> |r.rest| < |input|
    ensures r.message.Some? ==> 0 < |r.message.value| < MaxLength
  {
    var n := Min(4, |input|);
    var header := input[..n] + Zeros(4 - n);
    var after := input[n..];
    var len := Int32LE(header);
    if len > 0 then
      var m := Min(len, |after|);
      Read(Some(after[..m] + Zeros(len - m)), after[m..])
    else Read(None, after)
  }

  /** The header decodes back to the length it was written from. */
  lemma HeaderRoundTrip(len: nat)
    requires len < MaxLength
    ensures Int32LE(Header(len)) == len
  {
    var q1 := Shift8(len);
    var q2 := Shift8(q1);
    var q3 := Shift8(q2);
    assert len == len % 256 + 0x100 * q1;
    assert q1 == q1 % 256 + 0x100 * q2;
    assert q2 == q2 % 256 + 0x100 * q3;
    assert q3 < 128;
  }

  /** Reading a frame `Write` produced returns its body and leaves what follows. */
  lemma FrameRoundTrip(body: seq<Byte>, rest: seq<Byte>)
    requires 0 < |body| < MaxLength
    ensures ReadFrame(Encode(body) + rest) == Read(Some(body), rest)
  {
    var input := Encode(body) + rest;
    HeaderRoundTrip(|body|);
    assert input[..4] + Zeros(0) == Header(|body|);
    var after := input[4..];
    assert after == body + rest;
    assert after[..|body|] + Zeros(0) == body;
    assert after[|body|..] == rest;
  }

  /** An empty body is written with a zero length, and the reader skips it without consuming anything else. */
  lemma EmptyFrameSkipped(rest: seq<Byte>)
    ensures ReadFrame(Encode([]) + rest) == Read(None, rest)
  {
    var input := Encode([]) + rest;
    HeaderRoundTrip(0);
    assert input[..4] + Zeros(0) == Header(0);
    assert input[4..] == rest;
  }

  /** A header whose top bit is set reads as a negative length: no message, and only the header is consumed. */
  lemma NegativeLengthSkipsHeader(h: seq<Byte>, rest: seq<Byte>)
    requires |h| == 4 && h[3] >= 128
    ensures ReadFrame(h + rest) == Read(None, rest)
  {
    var input := h + rest;
    assert input[..4] + Zeros(0) == h;
    assert input[4..] == rest;
  }

  /**
   * At end of input the header buffer stays zero, so a read yields no message
   * and leaves the input empty: the main loop, which never exits, goes on
   * reading nothing.
   */
  lemma EndOfInputReadsNothing()
    ensures ReadFrame([]) == Read(None, [])
  {
    assert Zeros(4) == [0, 0, 0, 0];
  }

  /**
   * The main loop, cut off once the input is used up: frames are read one
   * after the other.  The source's loop does not stop there but keeps reading
   * empty frames (`EndOfInputReadsNothing`).
   */
  function ReadAll(input: seq<Byte>): seq<Option<seq<Byte>>>
    decreases |input|
  {
    if input == [] then [] else
      var r := ReadFrame(input);
      [r.message] + ReadAll(r.rest)
  }

  /** The frames of a sequence of messages, back to back. */
  function EncodeAll(bodies: seq<seq<Byte>>): (s: seq<Byte>)
    requires forall i :: 0 <= i < |bodies| ==> |bodies[i]| < MaxLength
  {
    if bodies == [] then [] else Encode(bodies[0]) + EncodeAll(bodies[1..])
  }

  /** Every non-empty message written is read back, in order, with nothing lost or invented. */
  lemma {:induction false} ReadAllEncodeAll(bodies: seq<seq<Byte>>)
    requires forall i :: 0 <= i < |bodies| ==> 0 < |bodies[i]| < MaxLength
    ensures var got := ReadAll(EncodeAll(bodies));
      |got| == |bodies| && forall i :: 0 <= i < |bodies| ==> got[i] == Some(bodies[i])
  {
    if bodies != [] {
      var tail := EncodeAll(bodies[1..]);
      FrameRoundTrip(bodies[0], tail);
      ReadAllEncodeAll(bodies[1..]);
    }
  }
}

=== FILE: host.dfy ===
/**
 * The native host (`Program`): message dispatch, the job table keyed by job
 * id, and the messages written back to the browser.  Every runner ever
 * created is kept in `runners` (a runner whose id was already taken runs
 * without a table entry); the table maps a job id to a position in it.
 * Handlers run one at a time.
 */
module NativeHost {
  import opened Values
  import Arguments
  import Runner

  datatype OutMsg =
    | JobOutputMsg(jobId: int, output: string)
    | JobEndedMsg(jobId: int, exitCode: int)
    | JobStartedMsg(jobId: int, output: string)

  /** A decoded message from the browser: its topic (null when absent), job id and properties. */
  datatype InMsg = InMsg(topic: StrVal, jobId: int, props: Arguments.Props)

  datatype Host = Host(runners: seq<Runner.Runner>, table: map<int, nat>, written: seq<OutMsg>)

  /** A handler either returns or lets an exception escape, which ends the process. */
  datatype HostStep = Continue(host: Host) | Crashed(message: string)

  /** The outside world's answers to the calls a handler makes. */
  datatype Env = Env(expand: string -> string, combine: (string, string) -> string, cookieJar: Runner.Launch, launch: Runner.Launch)

  function Initial(): Host { Host([], map[], []) }

  /** Every table entry names a runner that carries that id and has not been cancelled. */
  ghost predicate Valid(h: Host) {
    forall id :: id in h.table ==>
      h.table[id] < |h.runners| && h.runners[h.table[id]].jobId == id && !h.runners[h.table[id]].cancelled
  }

  /**
   * The subscribers `OnCreateJob` attaches to runner `k`: `Output` writes
   * `job-output`; `Ended` writes `job-ended`, disposes the runner and removes
   * its id from the table.
   */
  /** The message an event of the runner for `jobId` writes. */
  function MessageFor(jobId: int, e: Runner.Event): OutMsg {
    match e
    case Output(line) => JobOutputMsg(jobId, line)
    case Ended(code) => JobEndedMsg(jobId, code)
  }

  function Deliver(h: Host, k: nat, events: seq<Runner.Event>): (h': Host)
    requires k < |h.runners|
    ensures |h'.runners| == |h.runners|
    ensures forall i :: 0 <= i < |h.runners| && i != k ==> h'.runners[i] == h.runners[i]
    ensures h'.runners[k] == h.runners[k] || h'.runners[k] == Runner.Dispose(h.runners[k])
    ensures h'.table.Keys <= h.table.Keys
    ensures forall id :: id in h'.table ==> h'.table[id] == h.table[id]
    ensures |h'.written| == |h.written| + |events|
    ensures h'.written[..|h.written|] == h.written
    ensures forall i :: 0 <= i < |events| ==> h'.written[|h.written| + i] == MessageFor(h.runners[k].jobId, events[i])
    decreases |events|
  {
    if events == [] then h
    else
      var id := h.runners[k].jobId;
      var h1 := match events[0]
        case Output(line) => h.(written := h.written + [JobOutputMsg(id, line)])
        case Ended(code) =>
          Host(h.runners[k := Runner.Dispose(h.runners[k])], h.table - {id}, h.written + [JobEndedMsg(id, code)]);
      var h2 := Deliver(h1, k, events[1..]);
      assert h2.written[..|h.written|] == h1.written[..|h.written|];
      assert forall i :: 1 <= i < |events| ==> events[1..][i - 1] == events[i];
      assert h1.runners[k].jobId == id;
      h2
  }

  /**
   * An `Ended` among the events disposes the runner and drops its id from the
   * table; events that are all `Output` leave table and runners as they were.
   */
  lemma {:induction false} DeliverEnded(h: Host, k: nat, events: seq<Runner.Event>)
    requires k < |h.runners|
    ensures var h' := Deliver(h, k, events);
      && ((exists i :: 0 <= i < |events| && events[i].Ended?) ==>
            h.runners[k].jobId !in h'.table && h'.runners[k] == Runner.Dispose(h.runners[k]))
      && ((forall i :: 0 <= i < |events| ==> events[i].Output?) ==> h'.table == h.table && h'.runners == h.runners)
    decreases |events|
  {
    if events != [] {
      var id := h.runners[k].jobId;
      var h1 := match events[0]
        case Output(line) => h.(written := h.written + [JobOutputMsg(id, line)])
        case Ended(code) =>
          Host(h.runners[k := Runner.Dispose(h.runners[k])], h.table - {id}, h.written + [JobEndedMsg(id, code)]);
      assert Deliver(h, k, events) == Deliver(h1, k, events[1..]);
      DeliverEnded(h1, k, events[1..]);
      assert forall i :: 1 <= i < |events| ==> events[1..][i - 1] == events[i];
      if events[0].Output? && exists i :: 0 <= i < |events| && events[i].Ended? {
        var i :| 0 <= i < |events| && events[i].Ended?;
        assert events[1..][i - 1].Ended?;
      }
    }
  }

  /** The state change and the raised events of a runner call, applied to runner `k`. */
  function Apply(h: Host, k: nat, o: Runner.Outcome): (s: HostStep)
    requires k < |h.runners|
    ensures o.Threw? ==> s == Crashed(o.message)
    ensures o.Done? ==> s == Continue(Deliver(h.(runners := h.runners[k := o.runner]), k, o.events))
  {
    match o
    case Threw(m) => Crashed(m)
    case Done(r, events, _) => Continue(Deliver(h.(runners := h.runners[k := r]), k, events))
  }

  /**
   * `OnCreateJob`: a new runner is added under the job id unless the id is
   * already taken (`TryAdd`), started, and `job-started` with the command line
   * is written after whatever the start raised.
   */
  function CreateJob(h: Host, jobId: int, props: Arguments.Props, env: Env): (s: HostStep)
  {
    var k := |h.runners|;
    var r := Runner.NewRunner(jobId, props);
    var added := Host(h.runners + [r], if jobId in h.table then h.table else h.table[jobId := k], h.written);
    match Apply(added, k, Runner.Start(r, env.expand, env.combine, env.cookieJar, env.launch))
    case Crashed(m) => Crashed(m)
    case Continue(h2) => Continue(h2.(written := h2.written + [JobStartedMsg(jobId, Arguments.ToArguments(props, env.combine))]))
  }

  /**
   * `OnCancelJob`: a runner found under the id is cancelled, disposed and
   * removed, and the reply code is 254; otherwise the reply code is 255.
   */
  function CancelJob(h: Host, jobId: int): (h': Host)
  {
    if jobId in h.table && h.table[jobId] < |h.runners| then
      var k := h.table[jobId];
      var r := Runner.Dispose(Runner.Cancel(h.runners[k]).runner);
      Host(h.runners[k := r], h.table - {h.runners[k].jobId}, h.written + [JobEndedMsg(jobId, Runner.JobCancelled)])
    else
      h.(written := h.written + [JobEndedMsg(jobId, Runner.JobNotFound)])
  }

  /** `OnMessage`: only `create-job` and `cancel-job` are acted on. */
  function OnMessage(h: Host, m: InMsg, env: Env): (s: HostStep)
    ensures m.topic != Some("create-job") && m.topic != Some("cancel-job") ==> s == Continue(h)
  {
    if m.topic == Some("create-job") then CreateJob(h, m.jobId, m.props, env)
    else if m.topic == Some("cancel-job") then Continue(CancelJob(h, m.jobId))
    else Continue(h)
  }

  // ---------------------------------------------------------------------------
  // Events from the processes of runner `k`

  function PrimaryOutput(h: Host, k: nat, data: StrVal): HostStep
    requires k < |h.runners|
  {
    Apply(h, k, Runner.PrimaryOutput(h.runners[k], data))
  }

  function PostOutput(h: Host, k: nat, data: StrVal): HostStep
    requires k < |h.runners|
  {
    Apply(h, k, Runner.PostOutput(h.runners[k], data))
  }

  function PrimaryExited(h: Host, k: nat, code: int, env: Env): HostStep
    requires k < |h.runners|
  {
    Apply(h, k, Runner.PrimaryExited(h.runners[k], code, env.expand, env.launch))
  }

  function PostExited(h: Host, k: nat, code: int): HostStep
    requires k < |h.runners|
  {
    Apply(h, k, Runner.PostExited(h.runners[k], code))
  }

  // ---------------------------------------------------------------------------
  // Properties

  /**
   * `cancel-job` writes exactly one `job-ended` for the requested id: 254 and
   * the entry removed when the id is in the table, 255 and nothing else
   * changed when it is not.
   */
  lemma CancelJobReply(h: Host, jobId: int)
    requires Valid(h)
    ensures var h' := CancelJob(h, jobId);
      && h'.written == h.written + [JobEndedMsg(jobId, if jobId in h.table then Runner.JobCancelled else Runner.JobNotFound)]
      && h'.table == h.table - {jobId}
      && (jobId !in h.table ==> h'.runners == h.runners)
      && (jobId in h.table ==> h'.runners[h.table[jobId]].cancelled)
  {
  }

  /** A started runner stays in the table and the only message is `job-started` with the command line. */
  lemma CreateJobLaunched(h: Host, jobId: int, props: Arguments.Props, env: Env)
    requires jobId !in h.table && env.cookieJar.Launched? && env.launch.Launched?
    ensures var s := CreateJob(h, jobId, props, env);
      && s.Continue?
      && s.host.written == h.written + [JobStartedMsg(jobId, Arguments.ToArguments(props, env.combine))]
      && s.host.table == h.table[jobId := |h.runners|]
      && s.host.runners[|h.runners|].primary == Runner.Running
  {
  }

  /**
   * A start that fails writes the error line and `job-ended 253` before
   * `job-started`, and the id leaves the table again.
   */
  lemma CreateJobFailed(h: Host, jobId: int, props: Arguments.Props, env: Env, message: string)
    requires env.cookieJar.Launched? && env.launch == Runner.Failed(message)
    ensures var s := CreateJob(h, jobId, props, env);
      && s.Continue?
      && s.host.written == h.written + [JobOutputMsg(jobId, "Error starting youtube-dl process: " + message),
                                        JobEndedMsg(jobId, Runner.Error),
                                        JobStartedMsg(jobId, Arguments.ToArguments(props, env.combine))]
      && s.host.table == h.table - {jobId}
  {
    var k := |h.runners|;
    var r := Runner.NewRunner(jobId, props);
    var added := Host(h.runners + [r], if jobId in h.table then h.table else h.table[jobId := k], h.written);
    var o := Runner.Start(r, env.expand, env.combine, env.cookieJar, env.launch);
    assert o.events == Runner.StartFailure(message);
    var h0 := added.(runners := added.runners[k := o.runner]);
    var h1 := h0.(written := h0.written + [JobOutputMsg(jobId, "Error starting youtube-dl process: " + message)]);
    assert Deliver(h0, k, o.events) == Deliver(h1, k, o.events[1..]);
    var h2 := Host(h1.runners[k := Runner.Dispose(h1.runners[k])], h1.table - {jobId}, h1.written + [JobEndedMsg(jobId, Runner.Error)]);
    assert Deliver(h1, k, o.events[1..]) == Deliver(h2, k, []);
  }

  /**
   * `TryAdd` keeps an existing entry, but the second runner's `Ended` still
   * removes the id: the first runner is left running with no entry, so a
   * later `cancel-job` for that id answers 255.
   */
  lemma DuplicateIdOrphansRunner(h: Host, jobId: int, props: Arguments.Props, env: Env, message: string)
    requires Valid(h) && jobId in h.table
    requires env.cookieJar.Launched? && env.launch == Runner.Failed(message)
    ensures var s := CreateJob(h, jobId, props, env);
      && s.Continue?
      && jobId !in s.host.table
      && s.host.runners[h.table[jobId]] == h.runners[h.table[jobId]]
      && CancelJob(s.host, jobId).written[|s.host.written|] == JobEndedMsg(jobId, Runner.JobNotFound)
  {
    CreateJobFailed(h, jobId, props, env, message);
  }

  /** A cancelled runner writes nothing more, whatever its processes do; it can only crash the host. */
  lemma CancelledRunnerWritesNothing(h: Host, k: nat, code: int, data: StrVal, env: Env)
    requires k < |h.runners| && h.runners[k].cancelled
    ensures PrimaryOutput(h, k, data).host.written == h.written
    ensures PostOutput(h, k, data).host.written == h.written
    ensures PostExited(h, k, code).host.written == h.written
    ensures var s := PrimaryExited(h, k, code, env); s.Crashed? || s.host.written == h.written
  {
  }

  /**
   * After `cancel-job` the runner is disposed as well, so its downloader's
   * exit reads as code 1: the post-processing script is not started, nothing
   * is written and the host does not crash, whatever the code.
   */
  lemma CancelledJobExitIsQuiet(h: Host, jobId: int, code: int, env: Env)
    requires Valid(h) && jobId in h.table
    ensures var h' := CancelJob(h, jobId);
      var s := PrimaryExited(h', h.table[jobId], code, env);
      s.Continue? && s.host.written == h'.written
  {
    var k := h.table[jobId];
    var h' := CancelJob(h, jobId);
    assert h'.runners[k].primary == Runner.NoProc && h'.runners[k].cancelled;
  }

  // ---------------------------------------------------------------------------
  // The table invariant

  /** Delivering a runner's events keeps the invariant: they only remove entries and dispose. */
  lemma DeliverKeepsValid(h: Host, k: nat, events: seq<Runner.Event>)
    requires k < |h.runners| && Valid(h)
    ensures Valid(Deliver(h, k, events))
  {
  }

  /** Replacing a runner by one with the same id and cancel flag keeps the invariant. */
  lemma UpdateKeepsValid(h: Host, k: nat, r: Runner.Runner)
    requires k < |h.runners| && Valid(h)
    requires r.jobId == h.runners[k].jobId && r.cancelled == h.runners[k].cancelled
    ensures Valid(h.(runners := h.runners[k := r]))
  {
  }

  lemma ApplyKeepsValid(h: Host, k: nat, o: Runner.Outcome)
    requires k < |h.runners| && Valid(h)
    requires o.Done? ==> o.runner.jobId == h.runners[k].jobId && o.runner.cancelled == h.runners[k].cancelled
    ensures Apply(h, k, o).Continue? ==> Valid(Apply(h, k, o).host)
  {
    if o.Done? {
      UpdateKeepsValid(h, k, o.runner);
      DeliverKeepsValid(h.(runners := h.runners[k := o.runner]), k, o.events);
    }
  }

  /** Every message handler keeps the table invariant. */
  lemma OnMessageKeepsValid(h: Host, m: InMsg, env: Env)
    requires Valid(h)
    ensures OnMessage(h, m, env).Continue? ==> Valid(OnMessage(h, m, env).host)
  {
    if m.topic == Some("create-job") {
      var k := |h.runners|;
      var r := Runner.NewRunner(m.jobId, m.props);
      var added := Host(h.runners + [r], if m.jobId in h.table then h.table else h.table[m.jobId := k], h.written);
      assert Valid(added);
      ApplyKeepsValid(added, k, Runner.Start(r, env.expand, env.combine, env.cookieJar, env.launch));
    }
  }

  /** Every process event keeps the table invariant. */
  lemma EventsKeepValid(h: Host, k: nat, code: int, data: StrVal, env: Env)
    requires k < |h.runners| && Valid(h)
    ensures PrimaryOutput(h, k, data).Continue? ==> Valid(PrimaryOutput(h, k, data).host)
    ensures PostOutput(h, k, data).Continue? ==> Valid(PostOutput(h, k, data).host)
    ensures PrimaryExited(h, k, code, env).Continue? ==> Valid(PrimaryExited(h, k, code, env).host)
    ensures PostExited(h, k, code).Continue? ==> Valid(PostExited(h, k, code).host)
  {
    var r := h.runners[k];
    ApplyKeepsValid(h, k, Runner.PrimaryOutput(r, data));
    ApplyKeepsValid(h, k, Runner.PostOutput(r, data));
    ApplyKeepsValid(h, k, Runner.PrimaryExited(r, code, env.expand, env.launch));
    ApplyKeepsValid(h, k, Runner.PostExited(r, code));
  }
}

=== FILE: job.dfy ===
/**
 * The `Job` record of the background script and its own transitions:
 * construction, `cancel`, `ended` and `append`.
 *
 * A job's properties are opaque to the background script; they are kept as
 * the record the popup sends (or the synthetic update-executable record).
 */
module Jobs {
  import opened Values

  datatype JobState = Waiting | Active | Ended | Errored | Cancelled

  /** The properties a job carries to the native application. */
  datatype JobProps = JobProps(videoUrl: string, saveIn: StrVal, template: StrVal, format: StrVal, updateExe: bool)

  datatype Job = Job(
    id: int,
    props: JobProps,
    cancelRequested: bool,
    state: JobState,
    output: seq<string>,
    destination: Option<string>)

  /** The line appended whenever a job is resolved as cancelled. */
  const CancelledLine := "Job cancelled."

  /** A freshly constructed job: waiting, no cancel request, no output. */
  function NewJob(id: int, props: JobProps): (j: Job)
    ensures j.id == id && j.props == props
    ensures j.state == Waiting && !j.cancelRequested
    ensures j.output == [] && j.destination == None
  {
    Job(id, props, false, Waiting, [], None)
  }

  /** `append`: the line goes to the end of the output log; nothing else changes. */
  function Append(j: Job, line: string): (r: Job)
    ensures r.output == j.output + [line]
    ensures r == j.(output := r.output)
  {
    j.(output := j.output + [line])
  }

  /** What `cancel` does to a job, and whether it must post `cancel-job` to the native application. */
  datatype CancelResult = CancelResult(job: Job, postCancel: bool)

  /**
   * `cancel`: always records the request.  A waiting job is resolved on the
   * spot (cancelled, with the cancellation line); any other job is left in its
   * state and a `cancel-job` message is due.
   */
  function Cancel(j: Job): (r: CancelResult)
    ensures r.job.cancelRequested
    ensures r.job.id == j.id && r.job.props == j.props && r.job.destination == j.destination
    ensures j.state == Waiting ==> !r.postCancel && r.job.state == Cancelled && r.job.output == j.output + [CancelledLine]
    ensures j.state != Waiting ==> r.postCancel && r.job.state == j.state && r.job.output == j.output
  {
    var requested := j.(cancelRequested := true);
    if j.state == Waiting then
      CancelResult(Append(requested.(state := Cancelled), CancelledLine), false)
    else
      CancelResult(requested, true)
  }

  /**
   * `ended(exitCode)`: a requested cancellation wins over the exit code;
   * otherwise a positive code means errored and any other code ended.
   */
  function End(j: Job, exitCode: int): (r: Job)
    ensures r.id == j.id && r.props == j.props && r.cancelRequested == j.cancelRequested && r.destination == j.destination
    ensures j.cancelRequested ==> r.state == Cancelled && r.output == j.output + [CancelledLine]
    ensures !j.cancelRequested ==> r.output == j.output
    ensures !j.cancelRequested ==> (r.state == Errored <==> exitCode > 0)
    ensures !j.cancelRequested ==> (r.state == Ended <==> exitCode <= 0)
  {
    if j.cancelRequested then Append(j.(state := Cancelled), CancelledLine)
    else j.(state := if exitCode > 0 then Errored else Ended)
  }

  /** Every job the native side reports as ended lands in a terminal state. */
  lemma EndIsTerminal(j: Job, exitCode: int)
    ensures End(j, exitCode).state in {Ended, Errored, Cancelled}
  {
  }

  /** Cancelling and then ending always resolves to cancelled, whatever exit code the native side reports. */
  lemma CancelThenEndIsCancelled(j: Job, exitCode: int)
    ensures End(Cancel(j).job, exitCode).state == Cancelled
  {
  }
}

=== FILE: options.dfy ===
/**
 * The options page's pure parts: the cookie/host-permission bookkeeping of
 * `CookieOriginsHelper`, the backup file name, and how stored settings are
 * loaded into, and read back from, the form.
 */
module Options {
  import opened Values
  import Text
  import Settings

  // ---------------------------------------------------------------------------
  // CookieOriginsHelper

  const YoutubeOrigin := "*://youtube.com/*"
  const CookiesPermission := "cookies"

  datatype CookieOrigins = CookieOrigins(remaining: seq<string>, requested: seq<string>)

  /** The constructor: every known origin starts out as one to release. */
  function NewCookieOrigins(): (h: CookieOrigins)
    ensures h.remaining == [YoutubeOrigin] && h.requested == []
  {
    CookieOrigins([YoutubeOrigin], [])
  }

  /** `xs.filter(v => v !== x)`. */
  function Without(xs: seq<string>, x: string): (r: seq<string>)
    ensures x !in r
    ensures forall y :: y != x ==> multiset(r)[y] == multiset(xs)[y]
  {
    if xs == [] then []
    else
      var rest := Without(xs[1..], x);
      assert xs == [xs[0]] + xs[1..];
      if xs[0] == x then rest else [xs[0]] + rest
  }

  /** Filtering works piece by piece, so the kept elements stay in their order. */
  lemma {:induction false} WithoutAppend(xs: seq<string>, ys: seq<string>, x: string)
    ensures Without(xs + ys, x) == Without(xs, x) + Without(ys, x)
  {
    if xs == [] {
      assert xs + ys == ys;
    } else {
      assert (xs + ys)[0] == xs[0];
      assert (xs + ys)[1..] == xs[1..] + ys;
      WithoutAppend(xs[1..], ys, x);
    }
  }

  /** `requestOrigin(o)`: `o` leaves the origins to release and joins the requested ones. */
  function RequestOrigin(h: CookieOrigins, origin: string): (r: CookieOrigins)
    ensures origin !in r.remaining
    ensures forall y :: y != origin ==> multiset(r.remaining)[y] == multiset(h.remaining)[y]
    ensures r.requested == h.requested + [origin]
  {
    CookieOrigins(Without(h.remaining, origin), h.requested + [origin])
  }

  /** A call to the browser's permissions API. */
  datatype PermissionCall =
    | Request(origins: seq<string>, permissions: seq<string>)
    | Remove(origins: seq<string>, permissions: seq<string>)

  /**
   * `applyPermissions`: requests the requested origins plus cookies and
   * returns what the user answered (`granted`), or, when nothing is
   * requested, releases cookies and returns true; then releases the
   * remaining origins if there are any.
   */
  function ApplyPermissions(h: CookieOrigins, granted: bool): (r: (seq<PermissionCall>, bool))
    ensures |r.0| == (if h.remaining != [] then 2 else 1)
    ensures h.requested != [] ==> r.1 == granted && r.0[0] == Request(h.requested, [CookiesPermission])
    ensures h.requested == [] ==> r.1 && r.0[0] == Remove([], [CookiesPermission])
    ensures h.remaining != [] ==> r.0[1] == Remove(h.remaining, [])
  {
    var first := if h.requested != [] then Request(h.requested, [CookiesPermission]) else Remove([], [CookiesPermission]);
    var calls := [first] + (if h.remaining != [] then [Remove(h.remaining, [])] else []);
    (calls, if h.requested != [] then granted else true)
  }

  /** `removeAllPermissions`: one call releasing every origin it knows of, and cookies. */
  function RemoveAllPermissions(h: CookieOrigins): (c: PermissionCall)
    ensures c.Remove? && c.permissions == [CookiesPermission]
    ensures forall o :: o in c.origins <==> o in h.remaining || o in h.requested
  {
    Remove(h.remaining + h.requested, [CookiesPermission])
  }

  /**
   * The permission part of `saveOptions`: request the YouTube origin when the
   * cookie box is ticked, apply, and on refusal release everything and untick
   * the box.  Returns the calls made and the box's final state.
   */
  function SavePermissions(sendCookies: bool, granted: bool): (r: (seq<PermissionCall>, bool))
  {
    var h0 := NewCookieOrigins();
    var h := if sendCookies then RequestOrigin(h0, YoutubeOrigin) else h0;
    var (calls, ok) := ApplyPermissions(h, granted);
    if ok then (calls, sendCookies) else (calls + [RemoveAllPermissions(h)], false)
  }

  /** Ticking the box: one request for the YouTube origin and cookies; on refusal everything is released and the box unticked. */
  lemma SaveWithCookies(granted: bool)
    ensures var (calls, checked) := SavePermissions(true, granted);
      && checked == granted
      && calls[0] == Request([YoutubeOrigin], [CookiesPermission])
      && calls == [Request([YoutubeOrigin], [CookiesPermission])] + (if granted then [] else [Remove([YoutubeOrigin], [CookiesPermission])])
  {
    assert Without([YoutubeOrigin], YoutubeOrigin) == [];
  }

  /** Leaving the box unticked releases cookies and the YouTube origin, whatever the answer would have been. */
  lemma SaveWithoutCookies(granted: bool)
    ensures SavePermissions(false, granted) == ([Remove([], [CookiesPermission]), Remove([YoutubeOrigin], [])], false)
  {
    var r := ApplyPermissions(NewCookieOrigins(), granted);
    assert r.0 == [Remove([], [CookiesPermission]), Remove([YoutubeOrigin], [])];
  }

  // ---------------------------------------------------------------------------
  // Backup file name

  const BackupPrefix := "youtubeDlButton."
  const BackupSuffix := ".json"

  /** The name `backupSettings` gives the file: the local date with a 0-based month, shown 1-based and two digits wide. */
  function BackupFileName(year: int, month0: int, day: int): string {
    BackupPrefix + Text.IntToString(year) + "-" + Text.PadStart2(Text.IntToString(month0 + 1))
      + "-" + Text.PadStart2(Text.IntToString(day)) + BackupSuffix
  }

  /** The digits of a component, or `None` when it is not all digits. */
  function ComponentValue(s: string): (n: Option<nat>)
    ensures n.Some? <==> forall i :: 0 <= i < |s| ==> Text.IsDigit(s[i])
  {
    if forall i :: 0 <= i < |s| ==> Text.IsDigit(s[i]) then Some(Text.DigitsValue(s)) else None
  }

  /** Reads `year-month-day` back into year, 0-based month and day. */
  function ParseDate(middle: string): Option<(nat, nat, nat)> {
    var parts := Text.Split(middle, '-');
    if |parts| != 3 then None
    else match (ComponentValue(parts[0]), ComponentValue(parts[1]), ComponentValue(parts[2]))
      case (Some(y), Some(m), Some(d)) => if m >= 1 then Some((y, m - 1, d)) else None
      case _ => None
  }

  /** Reads a backup file name back into year, 0-based month and day. */
  function ParseBackupFileName(name: string): Option<(nat, nat, nat)> {
    if |name| < |BackupPrefix| + |BackupSuffix| || name[..|BackupPrefix|] != BackupPrefix
       || name[|name| - |BackupSuffix|..] != BackupSuffix then None
    else ParseDate(name[|BackupPrefix|..|name| - |BackupSuffix|])
  }

  /** A leading zero does not change the value of a string of digits. */
  lemma {:induction false} LeadingZero(x: string)
    requires forall i :: 0 <= i < |x| ==> Text.IsDigit(x[i])
    ensures Text.DigitsValue("0" + x) == Text.DigitsValue(x)
  {
    if x != [] {
      var z := "0" + x;
      assert z[..|z| - 1] == "0" + x[..|x| - 1];
      LeadingZero(x[..|x| - 1]);
    }
  }

  /** Padding a decimal with a leading zero keeps it a string of digits of the same value. */
  lemma PaddedDecimal(n: nat)
    ensures var p := Text.PadStart2(Text.IntToString(n));
      ComponentValue(p) == Some(n) && '-' !in p
  {
    var x := Text.NatToDecimal(n);
    assert Text.IntToString(n) == x;
    Text.DecimalRoundTrip(n);
    assert forall i :: 0 <= i < |x| ==> Text.IsDigit(x[i]);
    if |x| < 2 {
      LeadingZero(x);
      assert Text.PadStart2(x) == "0" + x;
    }
  }

  /** The prefix and suffix are recognised and the text between them is handed on. */
  lemma StripAffixes(middle: string)
    ensures var name := BackupPrefix + middle + BackupSuffix;
      && |name| >= |BackupPrefix| + |BackupSuffix|
      && name[..|BackupPrefix|] == BackupPrefix
      && name[|name| - |BackupSuffix|..] == BackupSuffix
      && name[|BackupPrefix|..|name| - |BackupSuffix|] == middle
  {
    var name := BackupPrefix + middle + BackupSuffix;
    assert name[..|BackupPrefix|] == BackupPrefix;
    assert name[|name| - |BackupSuffix|..] == BackupSuffix;
    assert name[|BackupPrefix|..|name| - |BackupSuffix|] == middle;
  }

  /** A name built from three dash-free digit strings parses to their values, the month shifted back to 0-based. */
  lemma ParseComposed(y: string, m: string, d: string, year: nat, month: nat, day: nat)
    requires '-' !in y && '-' !in m && '-' !in d && month >= 1
    requires ComponentValue(y) == Some(year) && ComponentValue(m) == Some(month) && ComponentValue(d) == Some(day)
    ensures ParseBackupFileName(BackupPrefix + (y + "-" + m + "-" + d) + BackupSuffix) == Some((year, month - 1, day))
  {
    StripAffixes(y + "-" + m + "-" + d);
    ParseDateComposed(y, m, d, year, month, day);
  }

  /** Three dash-free digit strings joined by dashes read back as their values, the month shifted back to 0-based. */
  lemma ParseDateComposed(y: string, m: string, d: string, year: nat, month: nat, day: nat)
    requires '-' !in y && '-' !in m && '-' !in d && month >= 1
    requires ComponentValue(y) == Some(year) && ComponentValue(m) == Some(month) && ComponentValue(d) == Some(day)
    ensures ParseDate(y + "-" + m + "-" + d) == Some((year, month - 1, day))
  {
    Text.SplitThree(y, m, d, '-');
  }

  /** A year is written as plain decimal digits, which read back as the year and hold no dash. */
  lemma YearComponent(year: nat)
    ensures var y := Text.IntToString(year); ComponentValue(y) == Some(year) && '-' !in y
  {
    var y := Text.NatToDecimal(year);
    assert forall i :: 0 <= i < |y| ==> Text.IsDigit(y[i]);
    Text.DecimalRoundTrip(year);
  }

  /** The file name is the prefix, the three components joined by dashes, and the suffix. */
  lemma BackupFileNameShape(y: string, m: string, d: string)
    ensures BackupPrefix + y + "-" + m + "-" + d + BackupSuffix == BackupPrefix + (y + "-" + m + "-" + d) + BackupSuffix
  {
  }

  /** The date is recovered from the file name, for every year from 0 on. */
  lemma BackupFileNameRoundTrip(year: nat, month0: nat, day: nat)
    requires month0 < 12 && 1 <= day <= 31
    ensures ParseBackupFileName(BackupFileName(year, month0, day)) == Some((year, month0, day))
  {
    var y := Text.IntToString(year);
    var m := Text.PadStart2(Text.IntToString(month0 + 1));
    var d := Text.PadStart2(Text.IntToString(day));
    YearComponent(year);
    PaddedDecimal(month0 + 1);
    PaddedDecimal(day);
    BackupFileNameShape(y, m, d);
    assert BackupFileName(year, month0, day) == BackupPrefix + (y + "-" + m + "-" + d) + BackupSuffix;
    ParseComposed(y, m, d, year, month0 + 1, day);
  }

  /** Each date gets its own file name. */
  lemma BackupFileNameInjective(y1: nat, m1: nat, d1: nat, y2: nat, m2: nat, d2: nat)
    requires m1 < 12 && 1 <= d1 <= 31 && m2 < 12 && 1 <= d2 <= 31
    requires BackupFileName(y1, m1, d1) == BackupFileName(y2, m2, d2)
    ensures y1 == y2 && m1 == m2 && d1 == d2
  {
    BackupFileNameRoundTrip(y1, m1, d1);
    BackupFileNameRoundTrip(y2, m2, d2);
  }

  // ---------------------------------------------------------------------------
  // Loading settings into the form and reading them back

  /** The general settings as the form shows them. */
  datatype GeneralForm = GeneralForm(exePath: string, concurrentJobsLimit: int, sendCookiesYoutube: bool)

  /** `populateSettings`: missing values fall back to "", 1 and false. */
  function PopulateGeneral(exePath: StrVal, limit: Option<int>, sendCookies: Option<bool>): (f: GeneralForm)
    ensures f.exePath == OrEmpty(exePath)
    ensures limit.Some? && limit.value != 0 ==> f.concurrentJobsLimit == limit.value
    ensures limit.None? || limit.value == 0 ==> f.concurrentJobsLimit == 1
    ensures f.sendCookiesYoutube <==> sendCookies == Some(true)
  {
    GeneralForm(OrEmpty(exePath), if limit.Some? && limit.value != 0 then limit.value else 1, sendCookies == Some(true))
  }

  /**
   * The general settings `saveOptions` stores are shown again as they were
   * saved, except that a saved limit of 0 comes back as 1.
   */
  lemma GeneralSaveLoad(f: GeneralForm)
    ensures PopulateGeneral(Some(f.exePath), Some(f.concurrentJobsLimit), Some(f.sendCookiesYoutube))
         == f.(concurrentJobsLimit := if f.concurrentJobsLimit == 0 then 1 else f.concurrentJobsLimit)
  {
  }

  /** One parameter set as its form shows it: every text field present, the check box a boolean. */
  datatype PropsForm = PropsForm(
    inheritDefault: bool, customArgs: string, format: string, icon: string,
    name: string, postProcessScript: string, saveIn: string, template: string)

  /**
   * `createPropsConfig(props, index)`: falsy text becomes ""; the inherit box
   * is ticked when the field is absent and follows it otherwise, except that
   * the first set never inherits.
   */
  function PropsToForm(p: Settings.ParamSet, index: int): (f: PropsForm)
    ensures index == 0 ==> !f.inheritDefault
    ensures index != 0 ==> (f.inheritDefault <==> p.inheritDefault != Some(false))
    ensures f.name == OrEmpty(p.name) && f.icon == OrEmpty(p.icon) && f.saveIn == OrEmpty(p.saveIn)
    ensures f.format == OrEmpty(p.format) && f.template == OrEmpty(p.template)
    ensures f.customArgs == OrEmpty(p.customArgs) && f.postProcessScript == OrEmpty(p.postProcessScript)
  {
    var inherit := if index == 0 then false else match p.inheritDefault case None => true case Some(b) => b;
    PropsForm(inherit, OrEmpty(p.customArgs), OrEmpty(p.format), OrEmpty(p.icon), OrEmpty(p.name),
              OrEmpty(p.postProcessScript), OrEmpty(p.saveIn), OrEmpty(p.template))
  }

  /** What `saveOptions` stores for a form: every field as the form holds it. */
  function FormToProps(f: PropsForm): (p: Settings.ParamSet)
    ensures p.inheritDefault == Some(f.inheritDefault)
    ensures p.name == Some(f.name) && p.saveIn == Some(f.saveIn) && p.format == Some(f.format) && p.template == Some(f.template)
    ensures p.icon == Some(f.icon) && p.customArgs == Some(f.customArgs) && p.postProcessScript == Some(f.postProcessScript)
  {
    Settings.ParamSet(Some(f.name), Some(f.icon), Some(f.saveIn), Some(f.format), Some(f.template),
                      Some(f.customArgs), Some(f.postProcessScript), Some(f.inheritDefault))
  }

  /** Saving the form and loading it again shows the same form: loading then saving reaches a fixed point. */
  lemma LoadSaveLoad(p: Settings.ParamSet, index: int)
    ensures PropsToForm(FormToProps(PropsToForm(p, index)), index) == PropsToForm(p, index)
  {
  }

  /** The built-in Audio set is shown inheriting, the built-in Default set is not, even if stored otherwise. */
  lemma BuiltInSetsInForm(p: Settings.ParamSet)
    ensures !PropsToForm(p, 0).inheritDefault
    ensures PropsToForm(Settings.AudioSet, 1).inheritDefault
    ensures PropsToForm(p.(inheritDefault := None), 5).inheritDefault
  {
  }
}

=== FILE: popup.dfy ===
/**
 * The popup's pure helpers: per-domain settings, resolution of a job's fields
 * before `ydb-create-job` is sent, the file name shown for a destination, and
 * where a new job row goes in the list.
 */
module Popup {
  import opened Values
  import Text
  import Settings

  // ---------------------------------------------------------------------------
  // Per-domain settings

  datatype PerDomainSettings = PerDomainSettings(saveIn: string, template: string, format: string)

  /** The raw record a `PerDomainSettings` is built from; `None` for a missing record or field. */
  datatype DomainData = DomainData(saveIn: StrVal, template: StrVal, format: StrVal)

  /** The constructor: a missing record counts as empty, and every falsy field becomes "". */
  function NewPerDomainSettings(data: Option<DomainData>): (s: PerDomainSettings)
    ensures data.None? ==> s == PerDomainSettings("", "", "")
    ensures data.Some? ==> s == PerDomainSettings(OrEmpty(data.value.saveIn), OrEmpty(data.value.template), OrEmpty(data.value.format))
  {
    var d := data.GetOr(DomainData(None, None, None));
    PerDomainSettings(OrEmpty(d.saveIn), OrEmpty(d.template), OrEmpty(d.format))
  }

  /** `isEmpty`: no field is set. */
  predicate IsEmpty(s: PerDomainSettings) {
    s.saveIn == "" && s.template == "" && s.format == ""
  }

  /** A record built from data is empty exactly when none of the three fields is truthy. */
  lemma EmptyIffNothingTruthy(data: DomainData)
    ensures IsEmpty(NewPerDomainSettings(Some(data))) <==> !Truthy(data.saveIn) && !Truthy(data.template) && !Truthy(data.format)
  {
  }

  /**
   * The map update of `savePerDomainSettings`.  `host` is the URL's host, or
   * `None` when the URL is empty or does not parse, in which case nothing is
   * saved.  An empty record deletes the host's entry; any other record
   * replaces it.
   */
  function SaveDomain(domains: map<string, PerDomainSettings>, host: Option<string>, s: PerDomainSettings): (r: map<string, PerDomainSettings>)
    ensures host.None? ==> r == domains
    ensures host.Some? ==> (host.value in r <==> !IsEmpty(s)) && (host.value in r ==> r[host.value] == s)
    ensures forall h :: (host.None? || h != host.value) ==> (h in r <==> h in domains) && (h in r ==> r[h] == domains[h])
  {
    match host
    case None => domains
    case Some(h) => if IsEmpty(s) then domains - {h} else domains[h := s]
  }

  /** Saving what is stored for a host, after loading it, changes nothing. */
  lemma SaveLoadedIsIdentity(domains: map<string, PerDomainSettings>, host: string)
    requires host in domains && !IsEmpty(domains[host])
    ensures SaveDomain(domains, Some(host), domains[host]) == domains
  {
  }

  // ---------------------------------------------------------------------------
  // Creating a job

  /** The popup form's text fields. */
  datatype Form = Form(videoUrl: string, saveIn: string, template: string, format: string)

  /** The properties of a `ydb-create-job` request. */
  datatype JobRequest = JobRequest(videoUrl: string, saveIn: string, template: string, format: string)

  datatype CreateOutcome =
    | Sent(request: JobRequest)
    | NeedsConfiguration
    | TypeErrorThrown

  /** `form || params || fallback` for one field. */
  function Resolve(form: string, params: StrVal, fallback: StrVal): (r: StrVal)
    ensures form != "" ==> r == Some(form)
    ensures form == "" && Truthy(params) ==> r == params
    ensures form == "" && !Truthy(params) ==> r == fallback
  {
    Or(Or(Some(form), params), fallback)
  }

  /** The fallback set: nothing at all, or, for a set that inherits, the first stored set. */
  const NoFallback := Settings.ParamSet(None, None, None, None, None, None, None, None)

  /** A field reaches its fallback when neither the form nor the parameter set supplies it. */
  predicate FallsBack(form: string, params: StrVal) {
    form == "" && !Truthy(params)
  }

  /**
   * `createJob(props)` with the selected parameter set.  Without an executable
   * path nothing is sent.  A set that inherits takes its fallbacks from the
   * first stored set; when there is no stored set, the first field that
   * reaches its fallback reads a property of `undefined` and throws.  If a
   * resolved field is still empty nothing is sent.
   */
  function CreateJob(exePath: StrVal, stored: seq<Settings.ParamSet>, params: Settings.ParamSet, form: Form): (o: CreateOutcome)
    ensures !Truthy(exePath) ==> o == NeedsConfiguration
    ensures o.TypeErrorThrown? <==>
      && Truthy(exePath) && params.inheritDefault == Some(true) && stored == []
      && (FallsBack(form.saveIn, params.saveIn) || FallsBack(form.template, params.template) || FallsBack(form.format, params.format))
    ensures o.Sent? ==>
      var fallback := if params.inheritDefault == Some(true) && stored != [] then stored[0] else NoFallback;
      && o.request.videoUrl == form.videoUrl
      && Some(o.request.saveIn) == Resolve(form.saveIn, params.saveIn, fallback.saveIn)
      && Some(o.request.template) == Resolve(form.template, params.template, fallback.template)
      && Some(o.request.format) == Resolve(form.format, params.format, fallback.format)
      && o.request.saveIn != "" && o.request.template != "" && o.request.format != ""
  {
    if !Truthy(exePath) then NeedsConfiguration
    else
      var inherit := params.inheritDefault == Some(true);
      if inherit && stored == []
         && (FallsBack(form.saveIn, params.saveIn) || FallsBack(form.template, params.template) || FallsBack(form.format, params.format))
      then TypeErrorThrown
      else
        var fallback := if inherit && stored != [] then stored[0] else NoFallback;
        var saveIn := Resolve(form.saveIn, params.saveIn, fallback.saveIn);
        var template := Resolve(form.template, params.template, fallback.template);
        var format := Resolve(form.format, params.format, fallback.format);
        if !Truthy(saveIn) || !Truthy(template) || !Truthy(format) then NeedsConfiguration
        else Sent(JobRequest(form.videoUrl, saveIn.value, template.value, format.value))
  }

  /**
   * With the executable configured and nothing thrown, a request is sent
   * exactly when every field resolves to something non-empty; what was sent
   * is then the form's value, else the set's, else the fallback's, per field.
   */
  lemma SentIffResolved(exePath: StrVal, stored: seq<Settings.ParamSet>, params: Settings.ParamSet, form: Form)
    requires Truthy(exePath) && (params.inheritDefault == Some(true) ==> stored != [])
    ensures var fallback := if params.inheritDefault == Some(true) then stored[0] else NoFallback;
      CreateJob(exePath, stored, params, form).Sent? <==>
        Truthy(Resolve(form.saveIn, params.saveIn, fallback.saveIn))
        && Truthy(Resolve(form.template, params.template, fallback.template))
        && Truthy(Resolve(form.format, params.format, fallback.format))
  {
  }

  /** A form that fills every field is sent as typed, whatever the set and the stored sets hold. */
  lemma FullFormIsSentAsTyped(exePath: string, stored: seq<Settings.ParamSet>, params: Settings.ParamSet, form: Form)
    requires exePath != "" && form.saveIn != "" && form.template != "" && form.format != ""
    ensures CreateJob(Some(exePath), stored, params, form) == Sent(JobRequest(form.videoUrl, form.saveIn, form.template, form.format))
  {
  }

  /**
   * The built-in audio set, which inherits, run against the built-in default
   * set with an empty form: saved where the default saves, named by the
   * default template, audio-only format.
   */
  lemma AudioInheritsDefault(exePath: string, videoUrl: string, saveIn: string)
    requires exePath != "" && saveIn != ""
    ensures CreateJob(Some(exePath), [Settings.DefaultSet.(saveIn := Some(saveIn)), Settings.AudioSet], Settings.AudioSet, Form(videoUrl, "", "", ""))
         == Sent(JobRequest(videoUrl, saveIn, Settings.DefaultTemplate, Settings.AudioFormat))
  {
  }

  // ---------------------------------------------------------------------------
  // File names and job rows

  /** `fileName`: the text after the last backslash or, when there is none, after the last slash. */
  function FileName(path: string): (r: string)
    ensures |r| <= |path| && r == path[|path| - |r|..]
    ensures '\\' !in r
    ensures '\\' in path ==> path[|path| - |r| - 1] == '\\'
    ensures '\\' !in path && '/' in path ==> '/' !in r && path[|path| - |r| - 1] == '/'
    ensures '\\' !in path && '/' !in path ==> r == path
  {
    var i := Text.LastIndexOf(path, '\\');
    var j := if i == -1 then Text.LastIndexOf(path, '/') else i;
    if j != -1 then path[j + 1..] else path
  }

  /** A Windows path shows the last component. */
  lemma FileNameOfWindowsPath(dir: string, name: string)
    requires '\\' !in name
    ensures FileName(dir + "\\" + name) == name
  {
    var path := dir + "\\" + name;
    var r := FileName(path);
    assert path[|dir|] == '\\';
    assert path[|path| - |name|..] == name;
  }

  /**
   * The position `createJobRow` inserts a new row at: before the first row
   * with a smaller id, or at the end.
   */
  method InsertPosition(rows: seq<int>, id: int) returns (i: nat)
    ensures i <= |rows|
    ensures forall j :: 0 <= j < i ==> rows[j] >= id
    ensures i < |rows| ==> rows[i] < id
  {
    i := 0;
    while i < |rows| && rows[i] >= id
      invariant i <= |rows|
      invariant forall j :: 0 <= j < i ==> rows[j] >= id
    {
      i := i + 1;
    }
  }

  /** Rows in strictly descending id order, as the job list is shown. */
  predicate Descending(rows: seq<int>) {
    forall a, b :: 0 <= a < b < |rows| ==> rows[a] > rows[b]
  }

  /** Inserting a new id below every larger row and above every smaller one keeps the order. */
  lemma InsertKeepsDescending(rows: seq<int>, id: int, i: nat)
    requires i <= |rows| && Descending(rows) && id !in rows
    requires forall j :: 0 <= j < i ==> rows[j] >= id
    requires i < |rows| ==> rows[i] < id
    ensures Descending(rows[..i] + [id] + rows[i..])
  {
    var r := rows[..i] + [id] + rows[i..];
    assert forall j :: 0 <= j < i ==> r[j] == rows[j];
    assert r[i] == id;
    assert forall j :: i < j < |r| ==> r[j] == rows[j - 1];
    forall a, b | 0 <= a < b < |r|
      ensures r[a] > r[b]
    {
      if b < i {
      } else if b == i {
        assert rows[a] >= id;
      } else if a < i {
        assert rows[a] > rows[b - 1];
      } else if a == i {
        assert rows[i] >= rows[b - 1];
      } else {
        assert rows[a - 1] > rows[b - 1];
      }
    }
  }

  /** `createJobRow`: the list with the new row inserted; a new id keeps the list in descending order. */
  method InsertRow(rows: seq<int>, id: int) returns (r: seq<int>)
    ensures multiset(r) == multiset(rows) + multiset{id}
    ensures Descending(rows) && id !in rows ==> Descending(r)
  {
    var i := InsertPosition(rows, id);
    r := rows[..i] + [id] + rows[i..];
    assert rows == rows[..i] + rows[i..];
    if Descending(rows) && id !in rows {
      InsertKeepsDescending(rows, id, i);
    }
  }
}

=== FILE: queue.dfy ===
/**
 * The background script's job queue: the job list (newest first), the id
 * counter and the native port, with the message handlers that change them.
 *
 * `Job.create()` posts `create-job` and flips the job to active inside a
 * storage promise; the model performs both in one atomic step (`Launch`), so
 * a job counts as active as soon as it has been dispatched.  The concurrent
 * jobs limit is a parameter of every handler that reads it.
 */
module Queue {
  import opened Values
  import opened Jobs
  import Text
  import Updates

  /**
   * The `props` value read back from storage when a job is dispatched: absent
   * or null (read as the `{}` default), the current list of parameter sets,
   * or a legacy object not yet migrated.
   */
  type StoredProps = Updates.LegacyProps

  /** The `props` object of a `create-job` message, restricted to the keys the native application reads. */
  datatype CreateProps = CreateProps(
    exePath: StrVal, saveIn: StrVal, template: StrVal, videoUrl: string,
    format: StrVal, customArgs: StrVal, updateExe: bool)

  /** Messages posted to the native application over the port. */
  datatype PortMsg = CreateJobCmd(jobId: int, props: CreateProps) | CancelJobCmd(jobId: int)

  datatype Queue = Queue(jobs: seq<Job>, nextId: int, portOpen: bool)

  /** What a handler resolves its promise with; `Threw` is a handler that raised an exception. */
  datatype Reply = JobReply(job: Job) | JobsReply(jobs: seq<Job>) | NoJob | NoReply | Threw

  /** One handler turn: the new state, the messages posted to the port in order, and the reply. */
  datatype Step = Step(q: Queue, sent: seq<PortMsg>, reply: Reply)

  /** The state when the background script loads. */
  function Initial(): (q: Queue)
    ensures q.jobs == [] && q.nextId == 1 && !q.portOpen
  {
    Queue([], 1, false)
  }

  /** Ids strictly descend along the list, newest first. */
  predicate IdsDescending(jobs: seq<Job>) {
    forall i, j :: 0 <= i < j < |jobs| ==> jobs[i].id > jobs[j].id
  }

  /** Ids come from the counter, so they are positive, below it, and strictly descending along the list. */
  ghost predicate Valid(q: Queue) {
    && q.nextId >= 1
    && (forall i :: 0 <= i < |q.jobs| ==> 1 <= q.jobs[i].id < q.nextId)
    && IdsDescending(q.jobs)
  }

  // ---------------------------------------------------------------------------
  // Queries

  function CountState(jobs: seq<Job>, s: JobState): nat
  {
    if jobs == [] then 0 else (if jobs[0].state == s then 1 else 0) + CountState(jobs[1..], s)
  }

  /** `countActiveJobs`. */
  function CountActive(jobs: seq<Job>): nat
  {
    CountState(jobs, Active)
  }

  /** Replacing one job changes the count of a state only by what that one job contributes. */
  lemma {:induction false} CountStateUpdate(jobs: seq<Job>, i: nat, j: Job, s: JobState)
    requires i < |jobs|
    ensures CountState(jobs[i := j], s) + (if jobs[i].state == s then 1 else 0)
         == CountState(jobs, s) + (if j.state == s then 1 else 0)
  {
    if i > 0 {
      assert jobs[i := j][1..] == jobs[1..][i - 1 := j];
      CountStateUpdate(jobs[1..], i - 1, j, s);
    }
  }

  /** A state that no job is in has count zero, and a positive count has a witness. */
  lemma {:induction false} CountStateWitness(jobs: seq<Job>, s: JobState)
    ensures CountState(jobs, s) > 0 <==> exists i :: 0 <= i < |jobs| && jobs[i].state == s
  {
    if jobs != [] {
      CountStateWitness(jobs[1..], s);
      if CountState(jobs[1..], s) > 0 {
        var i :| 0 <= i < |jobs[1..]| && jobs[1..][i].state == s;
        assert jobs[i + 1].state == s;
      }
      if exists i :: 0 <= i < |jobs| && jobs[i].state == s {
        var i :| 0 <= i < |jobs| && jobs[i].state == s;
        if i > 0 { assert jobs[1..][i - 1].state == s; }
      }
    }
  }

  /** `findJobById`: the position of the first job with this id. */
  function FindById(jobs: seq<Job>, id: int): (r: Option<nat>)
    ensures r.Some? ==> r.value < |jobs| && jobs[r.value].id == id
    ensures r.Some? ==> forall k :: 0 <= k < r.value ==> jobs[k].id != id
    ensures r.None? ==> forall k :: 0 <= k < |jobs| ==> jobs[k].id != id
  {
    if jobs == [] then None
    else if jobs[0].id == id then Some(0)
    else match FindById(jobs[1..], id)
      case None => None
      case Some(k) => Some(k + 1)
  }

  /** `findNextWaitingJob`: scans from the tail and returns the last waiting position. */
  function LastWaiting(jobs: seq<Job>): (r: Option<nat>)
    ensures r.Some? ==> r.value < |jobs| && jobs[r.value].state == Waiting
    ensures r.Some? ==> forall k :: r.value < k < |jobs| ==> jobs[k].state != Waiting
    ensures r.None? ==> forall k :: 0 <= k < |jobs| ==> jobs[k].state != Waiting
  {
    if jobs == [] then None
    else if jobs[|jobs| - 1].state == Waiting then Some(|jobs| - 1)
    else LastWaiting(jobs[..|jobs| - 1])
  }

  /** On a valid queue the job `findNextWaitingJob` picks is the waiting job with the lowest id (the oldest). */
  lemma NextWaitingIsOldest(q: Queue)
    requires Valid(q)
    ensures LastWaiting(q.jobs).Some? ==>
      forall k :: 0 <= k < |q.jobs| && q.jobs[k].state == Waiting ==> q.jobs[LastWaiting(q.jobs).value].id <= q.jobs[k].id
  {
  }

  // ---------------------------------------------------------------------------
  // Dispatch

  /** One key of `Object.assign`: the job's own key wins over the stored one. */
  function Inherit(own: StrVal, stored: StrVal): StrVal {
    if own.Some? then own else stored
  }

  /**
   * `Object.assign({}, result.props, this.props)`.  A list contributes only
   * index keys, which the native application does not read, so only a legacy
   * object supplies named keys; every key the job carries overrides it.
   */
  function Merge(stored: StoredProps, p: JobProps): (m: CreateProps)
    ensures m.videoUrl == p.videoUrl && m.updateExe == p.updateExe
    ensures p.saveIn.Some? ==> m.saveIn == p.saveIn
    ensures p.template.Some? ==> m.template == p.template
    ensures p.format.Some? ==> m.format == p.format
    ensures stored.PropsObject? ==>
      && m.exePath == stored.exePath && m.customArgs == stored.customArgs
      && (p.saveIn.None? ==> m.saveIn == stored.saveIn)
      && (p.template.None? ==> m.template == stored.template)
      && (p.format.None? ==> m.format == stored.format)
    ensures !stored.PropsObject? ==>
      m.exePath == None && m.customArgs == None && m.saveIn == p.saveIn && m.template == p.template && m.format == p.format
  {
    if stored.PropsObject? then
      CreateProps(stored.exePath, Inherit(p.saveIn, stored.saveIn), Inherit(p.template, stored.template),
                  p.videoUrl, Inherit(p.format, stored.format), stored.customArgs, p.updateExe)
    else
      CreateProps(None, p.saveIn, p.template, p.videoUrl, p.format, None, p.updateExe)
  }

  /** `job.create()` on the job at position `i`: opens the port, posts `create-job`, marks the job active. */
  function Launch(q: Queue, i: nat, stored: StoredProps): (r: Step)
    requires i < |q.jobs|
    ensures r.q.portOpen && |r.q.jobs| == |q.jobs| && r.q.nextId == q.nextId
    ensures r.q.jobs == q.jobs[i := q.jobs[i].(state := Active)]
    ensures r.sent == [CreateJobCmd(q.jobs[i].id, Merge(stored, q.jobs[i].props))]
  {
    var j := q.jobs[i];
    Step(q.(jobs := q.jobs[i := j.(state := Active)], portOpen := true), [CreateJobCmd(j.id, Merge(stored, j.props))], NoReply)
  }

  /** Launching a waiting job raises the active count by exactly one. */
  lemma LaunchCount(q: Queue, i: nat, stored: StoredProps)
    requires i < |q.jobs| && q.jobs[i].state == Waiting
    ensures CountActive(Launch(q, i, stored).q.jobs) == CountActive(q.jobs) + 1
  {
    CountStateUpdate(q.jobs, i, q.jobs[i].(state := Active), Active);
  }

  /** Unshifts a new job built from `props` and launches it when `admit` says so. */
  function Enqueue(q: Queue, props: JobProps, admit: bool, stored: StoredProps): (r: Step)
    ensures r.q.nextId == q.nextId + 1 && |r.q.jobs| == |q.jobs| + 1 && r.q.jobs[1..] == q.jobs
    ensures r.q.jobs[0] == NewJob(q.nextId, props).(state := r.q.jobs[0].state)
    ensures r.reply == JobReply(r.q.jobs[0])
    ensures admit ==> r.q.jobs[0].state == Active && r.sent == [CreateJobCmd(q.nextId, Merge(stored, props))] && r.q.portOpen
    ensures !admit ==> r.q.jobs[0].state == Waiting && r.sent == [] && r.q.portOpen == q.portOpen
  {
    var grown := q.(jobs := [NewJob(q.nextId, props)] + q.jobs, nextId := q.nextId + 1);
    if admit then
      var s := Launch(grown, 0, stored);
      assert s.q.jobs[1..] == q.jobs;
      s.(reply := JobReply(s.q.jobs[0]))
    else Step(grown, [], JobReply(grown.jobs[0]))
  }

  // ---------------------------------------------------------------------------
  // Handlers for messages from the popup

  /** `onCreateJob`: a new waiting job goes to the front and is dispatched only below the limit. */
  function CreateJob(q: Queue, props: JobProps, limit: int, stored: StoredProps): (r: Step)
    ensures r.q.nextId == q.nextId + 1 && |r.q.jobs| == |q.jobs| + 1 && r.q.jobs[1..] == q.jobs
    ensures r.q.jobs[0].id == q.nextId && r.q.jobs[0].props == props
    ensures !r.q.jobs[0].cancelRequested && r.q.jobs[0].output == []
    ensures r.reply == JobReply(r.q.jobs[0])
    ensures CountActive(q.jobs) < limit ==> r.q.jobs[0].state == Active && r.sent == [CreateJobCmd(q.nextId, Merge(stored, props))]
    ensures CountActive(q.jobs) >= limit ==> r.q.jobs[0].state == Waiting && r.sent == []
  {
    // The new job is waiting, so it does not change the active count.
    Enqueue(q, props, CountActive(q.jobs) < limit, stored)
  }

  /** The synthetic properties of an update-executable job. */
  const UpdateExeProps := JobProps("Update youtube-dl.exe executable", None, None, None, true)

  /** `onUpdateExe`: like creating a job, but dispatched whatever the active count. */
  function UpdateExe(q: Queue, stored: StoredProps): (r: Step)
    ensures r.q.nextId == q.nextId + 1 && |r.q.jobs| == |q.jobs| + 1 && r.q.jobs[1..] == q.jobs
    ensures r.q.jobs[0].id == q.nextId && r.q.jobs[0].props.updateExe
    ensures r.q.jobs[0].state == Active && r.sent == [CreateJobCmd(q.nextId, Merge(stored, UpdateExeProps))]
    ensures r.reply == JobReply(r.q.jobs[0])
  {
    Enqueue(q, UpdateExeProps, true, stored)
  }

  /**
   * The update-executable job carries only its url and flag, so a legacy
   * object supplies every other key the native application reads, while the
   * current list layout supplies none, not even the executable's path.
   */
  lemma UpdateExeInheritsStored(stored: StoredProps)
    ensures var m := Merge(stored, UpdateExeProps);
      && (stored.PropsObject? ==>
            m == CreateProps(stored.exePath, stored.saveIn, stored.template, UpdateExeProps.videoUrl,
                             stored.format, stored.customArgs, true))
      && (!stored.PropsObject? ==> m == CreateProps(None, None, None, UpdateExeProps.videoUrl, None, None, true))
  {
  }

  /**
   * A popup job carries its save folder, template and format, so whatever is
   * stored can only add the executable path and the custom arguments.
   */
  lemma PopupJobKeepsOwnKeys(s1: StoredProps, s2: StoredProps, p: JobProps)
    requires p.saveIn.Some? && p.template.Some? && p.format.Some?
    ensures Merge(s1, p).(exePath := None, customArgs := None) == Merge(s2, p).(exePath := None, customArgs := None)
  {
  }

  /**
   * `onCancelJob`: an unknown id answers `false`.  A known job is cancelled;
   * if it was not waiting a `cancel-job` is posted, which throws when the
   * port has already been closed (the job keeps its cancel request).
   */
  function CancelJob(q: Queue, id: int): (r: Step)
    ensures FindById(q.jobs, id).None? ==> r == Step(q, [], NoJob)
    ensures FindById(q.jobs, id).Some? ==>
      var i := FindById(q.jobs, id).value;
      var c := Cancel(q.jobs[i]);
      && r.q == q.(jobs := q.jobs[i := c.job])
      && (q.jobs[i].state == Waiting ==> r.sent == [] && r.reply == JobReply(c.job) && c.job.state == Cancelled)
      && (q.jobs[i].state != Waiting && q.portOpen ==> r.sent == [CancelJobCmd(id)] && r.reply == JobReply(c.job))
      && (q.jobs[i].state != Waiting && !q.portOpen ==> r.sent == [] && r.reply == Threw)
  {
    match FindById(q.jobs, id)
    case None => Step(q, [], NoJob)
    case Some(i) =>
      var c := Cancel(q.jobs[i]);
      var q' := q.(jobs := q.jobs[i := c.job]);
      if !c.postCancel then Step(q', [], JobReply(c.job))
      else if q.portOpen then Step(q', [CancelJobCmd(id)], JobReply(c.job))
      else Step(q', [], Threw)
  }

  /**
   * `onRetryJob`: an errored or cancelled job goes back to waiting and is
   * dispatched below the limit; any other known job is returned untouched.
   */
  function RetryJob(q: Queue, id: int, limit: int, stored: StoredProps): (r: Step)
    ensures FindById(q.jobs, id).None? ==> r == Step(q, [], NoJob)
    ensures FindById(q.jobs, id).Some? ==>
      var i := FindById(q.jobs, id).value;
      var j := q.jobs[i];
      && |r.q.jobs| == |q.jobs| && r.q.nextId == q.nextId
      && (forall k :: 0 <= k < |q.jobs| && k != i ==> r.q.jobs[k] == q.jobs[k])
      && r.reply == JobReply(r.q.jobs[i])
      && r.q.jobs[i].cancelRequested == j.cancelRequested
      && r.q.jobs[i].output == j.output
      && (j.state !in {Errored, Cancelled} ==> r.q == q && r.sent == [])
      && (j.state in {Errored, Cancelled} && CountActive(q.jobs) < limit ==>
            r.q.jobs[i].state == Active && r.sent == [CreateJobCmd(id, Merge(stored, j.props))])
      && (j.state in {Errored, Cancelled} && CountActive(q.jobs) >= limit ==>
            r.q.jobs[i].state == Waiting && r.sent == [])
  {
    match FindById(q.jobs, id)
    case None => Step(q, [], NoJob)
    case Some(i) =>
      var j := q.jobs[i];
      if j.state == Errored || j.state == Cancelled then
        var waiting := j.(state := Waiting);
        var q' := q.(jobs := q.jobs[i := waiting]);
        CountStateUpdate(q.jobs, i, waiting, Active);
        if CountActive(q'.jobs) < limit then
          var s := Launch(q', i, stored);
          s.(reply := JobReply(s.q.jobs[i]))
        else Step(q', [], JobReply(waiting))
      else Step(q, [], JobReply(j))
  }

  /** `message.data.jobId` is truthy: present and not zero. */
  predicate FilterRequested(jobId: Option<int>) {
    jobId.Some? && jobId.value != 0
  }

  function FilterById(jobs: seq<Job>, id: int): (r: seq<Job>)
    ensures forall j :: j in r <==> j in jobs && j.id == id
  {
    if jobs == [] then []
    else (if jobs[0].id == id then [jobs[0]] else []) + FilterById(jobs[1..], id)
  }

  /** `onGetJobs`: all jobs, or those with the requested id when one is given; never changes the state. */
  function GetJobs(q: Queue, jobId: Option<int>): (r: Step)
    ensures r.q == q && r.sent == []
    ensures !FilterRequested(jobId) ==> r.reply == JobsReply(q.jobs)
    ensures FilterRequested(jobId) ==> r.reply.JobsReply? && forall j :: j in r.reply.jobs <==> j in q.jobs && j.id == jobId.value
  {
    if FilterRequested(jobId) then Step(q, [], JobsReply(FilterById(q.jobs, jobId.value)))
    else Step(q, [], JobsReply(q.jobs))
  }

  /** On a valid queue a filtered `get-jobs` answers at most one job. */
  lemma {:induction false} GetJobsAtMostOne(jobs: seq<Job>, id: int)
    requires IdsDescending(jobs)
    ensures |FilterById(jobs, id)| <= 1
  {
    if jobs != [] {
      GetJobsAtMostOne(jobs[1..], id);
      var rest := FilterById(jobs[1..], id);
      if jobs[0].id == id && rest != [] {
        assert rest[0] in jobs[1..];
      }
    }
  }

  predicate Pending(j: Job) {
    j.state == Waiting || j.state == Active
  }

  /** The jobs that are waiting or active, in their original order. */
  function KeepPending(jobs: seq<Job>): (r: seq<Job>)
    ensures |r| <= |jobs|
    ensures forall j :: j in r <==> j in jobs && Pending(j)
  {
    if jobs == [] then []
    else (if Pending(jobs[0]) then [jobs[0]] else []) + KeepPending(jobs[1..])
  }

  /** Every waiting or active job survives with all its copies; every other job disappears. */
  lemma {:induction false} KeepPendingMultiset(jobs: seq<Job>)
    ensures forall j :: multiset(KeepPending(jobs))[j] == (if Pending(j) then multiset(jobs)[j] else 0)
  {
    if jobs != [] {
      var head := if Pending(jobs[0]) then [jobs[0]] else [];
      assert jobs == [jobs[0]] + jobs[1..];
      assert KeepPending(jobs) == head + KeepPending(jobs[1..]);
      KeepPendingMultiset(jobs[1..]);
    }
  }

  /** Filtering works piece by piece, so the kept jobs stay in their relative order. */
  lemma {:induction false} KeepPendingAppend(xs: seq<Job>, ys: seq<Job>)
    ensures KeepPending(xs + ys) == KeepPending(xs) + KeepPending(ys)
  {
    if xs == [] {
      assert xs + ys == ys;
    } else {
      var head := if Pending(xs[0]) then [xs[0]] else [];
      assert (xs + ys)[0] == xs[0];
      assert (xs + ys)[1..] == xs[1..] + ys;
      assert KeepPending(xs + ys) == head + KeepPending(xs[1..] + ys);
      assert KeepPending(xs) == head + KeepPending(xs[1..]);
      KeepPendingAppend(xs[1..], ys);
    }
  }

  /** In a strictly descending list the head's id is above every later job's. */
  lemma HeadAboveRest(jobs: seq<Job>)
    requires jobs != [] && IdsDescending(jobs)
    ensures forall x :: x in jobs[1..] ==> jobs[0].id > x.id
  {
    forall x | x in jobs[1..]
      ensures jobs[0].id > x.id
    {
      var m :| 0 <= m < |jobs[1..]| && jobs[1..][m] == x;
      assert jobs[m + 1] == x;
    }
  }

  /** A job whose id is above all of a descending list's can go in front of it. */
  lemma PrependDescending(x: Job, jobs: seq<Job>)
    requires IdsDescending(jobs) && forall y :: y in jobs ==> x.id > y.id
    ensures IdsDescending([x] + jobs)
  {
    var r := [x] + jobs;
    forall i, j | 0 <= i < j < |r|
      ensures r[i].id > r[j].id
    {
      assert r[j] == jobs[j - 1] && jobs[j - 1] in jobs;
      if i > 0 {
        assert r[i] == jobs[i - 1];
      }
    }
  }

  /** Keeping some jobs of a strictly descending list leaves it strictly descending. */
  lemma {:induction false} KeepPendingSorted(jobs: seq<Job>)
    requires IdsDescending(jobs)
    ensures IdsDescending(KeepPending(jobs))
  {
    if jobs != [] {
      assert IdsDescending(jobs[1..]);
      KeepPendingSorted(jobs[1..]);
      var tail := KeepPending(jobs[1..]);
      if Pending(jobs[0]) {
        HeadAboveRest(jobs);
        PrependDescending(jobs[0], tail);
        assert KeepPending(jobs) == [jobs[0]] + tail;
      } else {
        assert KeepPending(jobs) == tail;
      }
    }
  }

  /** Cleaning never changes how many jobs are waiting or active. */
  lemma {:induction false} KeepPendingCounts(jobs: seq<Job>, s: JobState)
    requires s == Waiting || s == Active
    ensures CountState(KeepPending(jobs), s) == CountState(jobs, s)
  {
    if jobs != [] {
      KeepPendingCounts(jobs[1..], s);
      var tail := KeepPending(jobs[1..]);
      if Pending(jobs[0]) {
        var kept := KeepPending(jobs);
        assert kept == [jobs[0]] + tail;
        assert kept[0] == jobs[0] && kept[1..] == tail;
      } else {
        assert KeepPending(jobs) == tail;
      }
    }
  }

  /** `onCleanJobs`: drops every job that is neither waiting nor active and answers the remaining list. */
  function CleanJobs(q: Queue): (r: Step)
    ensures r.q == q.(jobs := KeepPending(q.jobs)) && r.sent == [] && r.reply == JobsReply(r.q.jobs)
    ensures forall j :: j in r.q.jobs <==> j in q.jobs && (j.state == Waiting || j.state == Active)
  {
    var kept := KeepPending(q.jobs);
    Step(q.(jobs := kept), [], JobsReply(kept))
  }

  // ---------------------------------------------------------------------------
  // Handlers for messages from the native application

  /** JavaScript's `.` refuses line terminators. */
  const JsNotDot: set<char> := {'\n', '\r', '\U{2028}', '\U{2029}'}

  /** The file name in an output line, from the first of three case-sensitive patterns that matches. */
  function DestinationOf(line: string): (r: Option<string>)
    ensures r.Some? ==> |r.value| >= 1
    ensures r.Some? ==>
      || line == "[ffmpeg] Merging formats into \"" + r.value + "\""
      || line == "[download] Destination: " + r.value
      || line == "[download] " + r.value + " has already been downloaded"
  {
    var merged := Text.MatchBetween(line, "[ffmpeg] Merging formats into \"", "\"", false, JsNotDot);
    var dest := Text.MatchBetween(line, "[download] Destination: ", "", false, JsNotDot);
    var already := Text.MatchBetween(line, "[download] ", " has already been downloaded", false, JsNotDot);
    Text.MatchBetweenExact(line, "[ffmpeg] Merging formats into \"", "\"", JsNotDot);
    Text.MatchBetweenExact(line, "[download] Destination: ", "", JsNotDot);
    Text.MatchBetweenExact(line, "[download] ", " has already been downloaded", JsNotDot);
    if merged.Some? then merged else if dest.Some? then dest else already
  }

  /** The three recognised line shapes are each read back to the file name they carry. */
  lemma DestinationPatterns(name: string)
    requires Text.DotPlus(name, JsNotDot)
    ensures DestinationOf("[ffmpeg] Merging formats into \"" + name + "\"") == Some(name)
    ensures DestinationOf("[download] Destination: " + name) == Some(name)
    ensures !Text.StartsWith("[download] " + name + " has already been downloaded", "[download] Destination: ") ==>
      DestinationOf("[download] " + name + " has already been downloaded") == Some(name)
  {
    var merged := "[ffmpeg] Merging formats into \"";
    var dest := "[download] Destination: ";
    var already := " has already been downloaded";
    Text.MatchBetweenComplete(merged, name, "\"", merged, "\"", false, JsNotDot);
    assert "[ffmpeg] Merging formats into \"" + name + "\"" == merged + name + "\"";

    var line2 := dest + name;
    assert line2[1] == 'd';
    assert Text.MatchBetween(line2, merged, "\"", false, JsNotDot).None? by {
      if |line2| >= |merged| + 2 {
        assert line2[..|merged|][1] != merged[1];
      }
    }
    Text.MatchBetweenComplete(dest, name, "", dest, "", false, JsNotDot);
    assert line2 == dest + name + "";

    var line3 := "[download] " + name + already;
    if !Text.StartsWith(line3, dest) {
      assert line3[1] == 'd';
      assert Text.MatchBetween(line3, merged, "\"", false, JsNotDot).None? by {
        if |line3| >= |merged| + 2 {
          assert line3[..|merged|][1] != merged[1];
        }
      }
      assert Text.MatchBetween(line3, dest, "", false, JsNotDot).None?;
      Text.MatchBetweenComplete("[download] ", name, already, "[download] ", already, false, JsNotDot);
    }
  }

  /** A line that does not open with `[` carries no destination, so it leaves the job's destination alone. */
  lemma NoBracketNoDestination(line: string)
    requires line == [] || line[0] != '['
    ensures DestinationOf(line) == None
  {
  }

  /** `onJobOutput`: a known job gets the line appended and, when a pattern matches, its destination set. */
  function JobOutput(q: Queue, id: int, line: string): (r: Step)
    ensures r.sent == [] && r.q.nextId == q.nextId && r.q.portOpen == q.portOpen
    ensures FindById(q.jobs, id).None? ==> r.q == q
    ensures FindById(q.jobs, id).Some? ==>
      var i := FindById(q.jobs, id).value;
      var j := q.jobs[i];
      && |r.q.jobs| == |q.jobs|
      && r.q.jobs == q.jobs[i := r.q.jobs[i]]
      && r.q.jobs[i].output == j.output + [line]
      && r.q.jobs[i].state == j.state && r.q.jobs[i].id == j.id
      && r.q.jobs[i].destination == (if DestinationOf(line).Some? then DestinationOf(line) else j.destination)
  {
    match FindById(q.jobs, id)
    case None => Step(q, [], NoReply)
    case Some(i) =>
      var j := Append(q.jobs[i], line);
      var j' := match DestinationOf(line)
        case Some(d) => j.(destination := Some(d))
        case None => j;
      Step(q.(jobs := q.jobs[i := j']), [], NoReply)
  }

  /**
   * `onJobEnded`: ends the known job, then, below the limit, dispatches the
   * next waiting job.  The port is closed when the handler's `job` variable
   * ends up empty and nothing was active: below the limit that variable holds
   * the promoted job, otherwise it still holds the job found by id.
   * The message arrives through the port, so the port is open.
   */
  function JobEnded(q: Queue, id: int, exitCode: int, limit: int, stored: StoredProps): (r: Step)
    requires q.portOpen
  {
    var found := FindById(q.jobs, id);
    var q1 := match found
      case None => q
      case Some(i) => q.(jobs := q.jobs[i := End(q.jobs[i], exitCode)]);
    var active := CountActive(q1.jobs);
    if active < limit then
      match LastWaiting(q1.jobs)
      case Some(k) => Launch(q1, k, stored)
      case None => if active == 0 then Step(q1.(portOpen := false), [], NoReply) else Step(q1, [], NoReply)
    else
      if found.None? && active == 0 then Step(q1.(portOpen := false), [], NoReply) else Step(q1, [], NoReply)
  }

  /** The job list after `onJobEnded` has applied `ended` to the job with the id, before any promotion. */
  function AfterEnd(q: Queue, id: int, exitCode: int): seq<Job>
  {
    match FindById(q.jobs, id)
    case None => q.jobs
    case Some(i) => q.jobs[i := End(q.jobs[i], exitCode)]
  }

  /** How `onJobEnded` acts on the list after `ended`, before anything is known about ids. */
  lemma JobEndedShape(q: Queue, id: int, exitCode: int, limit: int, stored: StoredProps)
    requires q.portOpen
    ensures var r := JobEnded(q, id, exitCode, limit, stored);
      var after := AfterEnd(q, id, exitCode);
      var active := CountActive(after);
      && r.q.nextId == q.nextId && |r.q.jobs| == |q.jobs| && |r.sent| <= 1
      && (|r.sent| == 1 <==> active < limit && LastWaiting(after).Some?)
      && (|r.sent| == 1 ==>
            var k := LastWaiting(after).value;
            && r.sent[0] == CreateJobCmd(after[k].id, Merge(stored, after[k].props))
            && r.q.jobs == after[k := after[k].(state := Active)])
      && (|r.sent| == 0 ==> r.q.jobs == after)
      && (!r.q.portOpen <==> |r.sent| == 0 && active == 0 && (active < limit || FindById(q.jobs, id).None?))
  {
  }

  /**
   * `onJobEnded` in terms of the list after `ended`: at most one job is
   * dispatched, it is the oldest waiting job, and only when the active count
   * is below the limit; the port closes only when nothing was dispatched and
   * nothing is active.
   */
  lemma JobEndedSpec(q: Queue, id: int, exitCode: int, limit: int, stored: StoredProps)
    requires q.portOpen && Valid(q)
    ensures var r := JobEnded(q, id, exitCode, limit, stored);
      var after := AfterEnd(q, id, exitCode);
      var active := CountActive(after);
      && r.q.nextId == q.nextId && |r.q.jobs| == |q.jobs| && |r.sent| <= 1
      && (FindById(q.jobs, id).Some? ==> after[FindById(q.jobs, id).value].state in {Ended, Errored, Cancelled})
      && (|r.sent| == 1 <==> active < limit && LastWaiting(after).Some?)
      && (|r.sent| == 1 ==>
            var k := LastWaiting(after).value;
            && r.sent[0] == CreateJobCmd(after[k].id, Merge(stored, after[k].props))
            && r.q.jobs == after[k := after[k].(state := Active)]
            && (forall m :: 0 <= m < |after| && after[m].state == Waiting ==> after[k].id <= after[m].id))
      && (|r.sent| == 0 ==> r.q.jobs == after)
      && (!r.q.portOpen <==> |r.sent| == 0 && active == 0 && (active < limit || FindById(q.jobs, id).None?))
  {
    JobEndedShape(q, id, exitCode, limit, stored);
    var after := AfterEnd(q, id, exitCode);
    var q1 := q.(jobs := after);
    assert forall m :: 0 <= m < |after| ==> after[m].id == q.jobs[m].id;
    assert Valid(q1);
    NextWaitingIsOldest(q1);
  }

  /** `onPortDisconnect`: only the port is forgotten; no job changes state. */
  function PortDisconnected(q: Queue): (r: Queue)
    ensures r.jobs == q.jobs && r.nextId == q.nextId && !r.portOpen
  {
    q.(portOpen := false)
  }

  /**
   * After an unexpected disconnect an active job stays active, and asking to
   * cancel it throws: the request is recorded, but no `cancel-job` is posted.
   */
  lemma DisconnectStrandsActiveJob(q: Queue, i: nat)
    requires Valid(q) && i < |q.jobs| && q.jobs[i].state == Active
    ensures var s := CancelJob(PortDisconnected(q), q.jobs[i].id);
      && s.reply == Threw && s.sent == []
      && s.q.jobs[i].state == Active && s.q.jobs[i].cancelRequested
  {
    var found := FindById(q.jobs, q.jobs[i].id);
    assert found.Some?;
  }

  // ---------------------------------------------------------------------------
  // Invariants

  /** Changing one job without touching its id keeps a queue valid. */
  lemma UpdateKeepsValid(q: Queue, i: nat, j: Job)
    requires Valid(q) && i < |q.jobs| && j.id == q.jobs[i].id
    ensures Valid(q.(jobs := q.jobs[i := j]))
  {
    assert forall k :: 0 <= k < |q.jobs| ==> q.jobs[i := j][k].id == q.jobs[k].id;
  }

  /** Putting a job with the counter's id in front and bumping the counter keeps validity. */
  lemma PushKeepsValid(q: Queue, r: Queue)
    requires Valid(q)
    requires r.nextId == q.nextId + 1 && |r.jobs| == |q.jobs| + 1 && r.jobs[1..] == q.jobs && r.jobs[0].id == q.nextId
    ensures Valid(r)
  {
    forall k | 1 <= k < |r.jobs|
      ensures r.jobs[k] == q.jobs[k - 1]
    {
      assert r.jobs[1..][k - 1] == r.jobs[k];
    }
  }

  /** Creating a job (or an update-executable job) keeps ids unique, descending and below the counter. */
  lemma CreateKeepsValid(q: Queue, props: JobProps, limit: int, stored: StoredProps)
    requires Valid(q)
    ensures Valid(CreateJob(q, props, limit, stored).q)
    ensures Valid(UpdateExe(q, stored).q)
  {
    PushKeepsValid(q, CreateJob(q, props, limit, stored).q);
    PushKeepsValid(q, UpdateExe(q, stored).q);
  }

  /** Cancel and retry change one job in place, so validity is kept. */
  lemma CancelRetryKeepValid(q: Queue, id: int, limit: int, stored: StoredProps)
    requires Valid(q)
    ensures Valid(CancelJob(q, id).q)
    ensures Valid(RetryJob(q, id, limit, stored).q)
  {
    match FindById(q.jobs, id) {
      case None =>
      case Some(i) =>
        UpdateKeepsValid(q, i, CancelJob(q, id).q.jobs[i]);
        UpdateKeepsValid(q, i, RetryJob(q, id, limit, stored).q.jobs[i]);
    }
  }

  /** Output changes one job in place, so validity is kept. */
  lemma OutputKeepsValid(q: Queue, id: int, line: string)
    requires Valid(q)
    ensures Valid(JobOutput(q, id, line).q)
  {
    match FindById(q.jobs, id) {
      case None =>
      case Some(i) => UpdateKeepsValid(q, i, JobOutput(q, id, line).q.jobs[i]);
    }
  }

  /** `job-ended` changes at most two jobs in place, so validity is kept. */
  lemma JobEndedKeepsValid(q: Queue, id: int, exitCode: int, limit: int, stored: StoredProps)
    requires Valid(q) && q.portOpen
    ensures Valid(JobEnded(q, id, exitCode, limit, stored).q)
  {
    JobEndedSpec(q, id, exitCode, limit, stored);
    var r := JobEnded(q, id, exitCode, limit, stored).q;
    assert forall k :: 0 <= k < |q.jobs| ==> r.jobs[k].id == q.jobs[k].id;
  }

  /** Cleaning keeps validity: the kept jobs stay in their descending order. */
  lemma CleanKeepsValid(q: Queue)
    requires Valid(q)
    ensures Valid(CleanJobs(q).q)
  {
    KeepPendingSorted(q.jobs);
    var c := CleanJobs(q).q;
    assert forall k :: 0 <= k < |c.jobs| ==> c.jobs[k] in q.jobs;
  }

  /** The active count never exceeds the limit. */
  ghost predicate WithinLimit(q: Queue, limit: int) {
    CountActive(q.jobs) <= limit
  }

  /** `create-job` dispatches only below the limit, so the limit is respected. */
  lemma CreateRespectsLimit(q: Queue, props: JobProps, limit: int, stored: StoredProps)
    requires WithinLimit(q, limit)
    ensures WithinLimit(CreateJob(q, props, limit, stored).q, limit)
  {
    var grown := q.(jobs := [NewJob(q.nextId, props)] + q.jobs, nextId := q.nextId + 1);
    assert grown.jobs[1..] == q.jobs;
    if CountActive(q.jobs) < limit {
      LaunchCount(grown, 0, stored);
      assert CreateJob(q, props, limit, stored).q == Launch(grown, 0, stored).q;
    } else {
      assert CreateJob(q, props, limit, stored).q == grown;
    }
  }

  /** `cancel-job` and `job-output` never make a job active, so the limit is respected. */
  lemma CancelAndOutputRespectLimit(q: Queue, id: int, line: string, limit: int)
    requires WithinLimit(q, limit)
    ensures WithinLimit(CancelJob(q, id).q, limit)
    ensures WithinLimit(JobOutput(q, id, line).q, limit)
  {
    match FindById(q.jobs, id) {
      case None =>
      case Some(i) =>
        CountStateUpdate(q.jobs, i, CancelJob(q, id).q.jobs[i], Active);
        CountStateUpdate(q.jobs, i, JobOutput(q, id, line).q.jobs[i], Active);
    }
  }

  /** `retry-job` re-dispatches only below the limit, so the limit is respected. */
  lemma RetryRespectsLimit(q: Queue, id: int, limit: int, stored: StoredProps)
    requires WithinLimit(q, limit)
    ensures WithinLimit(RetryJob(q, id, limit, stored).q, limit)
  {
    match FindById(q.jobs, id) {
      case None =>
      case Some(i) =>
        var j := q.jobs[i];
        if j.state == Errored || j.state == Cancelled {
          var q' := q.(jobs := q.jobs[i := j.(state := Waiting)]);
          CountStateUpdate(q.jobs, i, j.(state := Waiting), Active);
          if CountActive(q'.jobs) < limit {
            LaunchCount(q', i, stored);
          }
        }
    }
  }

  /** `clean-jobs` keeps exactly the active jobs it had, so the limit is respected. */
  lemma CleanRespectsLimit(q: Queue, limit: int)
    requires WithinLimit(q, limit)
    ensures WithinLimit(CleanJobs(q).q, limit)
  {
    KeepPendingCounts(q.jobs, Active);
  }

  /** `job-ended` ends one job and dispatches at most one, only below the limit, so the limit is respected. */
  lemma JobEndedRespectsLimit(q: Queue, id: int, exitCode: int, limit: int, stored: StoredProps)
    requires q.portOpen && WithinLimit(q, limit)
    ensures WithinLimit(JobEnded(q, id, exitCode, limit, stored).q, limit)
  {
    var after := AfterEnd(q, id, exitCode);
    match FindById(q.jobs, id) {
      case None =>
      case Some(i) => CountStateUpdate(q.jobs, i, End(q.jobs[i], exitCode), Active);
    }
    if CountActive(after) < limit {
      match LastWaiting(after) {
        case None =>
        case Some(k) => LaunchCount(q.(jobs := after), k, stored);
      }
    }
  }

  /** `update-exe` bypasses the limit: with the limit reached it still dispatches, exceeding it. */
  lemma UpdateExeExceedsLimit(stored: StoredProps)
    ensures var q := CreateJob(Initial(), UpdateExeProps, 1, stored).q;
      CountActive(q.jobs) == 1 && CountActive(UpdateExe(q, stored).q.jobs) == 2
  {
    var q := CreateJob(Initial(), UpdateExeProps, 1, stored).q;
    var u := UpdateExe(q, stored).q;
    assert u.jobs[1..] == q.jobs;
    assert u.jobs[1..][1..] == [];
  }

  /** Two jobs with a limit of one: the first runs, the second waits, and is promoted when the first ends. */
  lemma TwoJobScenario(props: JobProps, stored: StoredProps)
    ensures var s1 := CreateJob(Initial(), props, 1, stored);
      var s2 := CreateJob(s1.q, props, 1, stored);
      var s3 := JobEnded(s2.q, 1, 0, 1, stored);
      && s2.q.jobs[1].id == 1 && s2.q.jobs[1].state == Active
      && s2.q.jobs[0].id == 2 && s2.q.jobs[0].state == Waiting
      && s3.q.jobs[1].state == Ended && s3.q.jobs[0].state == Active
      && s3.sent == [CreateJobCmd(2, Merge(stored, props))] && s3.q.portOpen
  {
    var s1 := CreateJob(Initial(), props, 1, stored);
    var s2 := CreateJob(s1.q, props, 1, stored);
    assert s2.q.jobs[1..] == s1.q.jobs;
    assert s2.q.jobs[1..][1..] == [];
    assert CountActive(s2.q.jobs) == 1;
    assert FindById(s2.q.jobs, 1) == Some(1);
    var after := AfterEnd(s2.q, 1, 0);
    assert after[1].state == Ended && after[0].state == Waiting;
    assert after[1..][1..] == [];
    assert after[1..][0].state == Ended;
    assert CountState(after[1..], Active) == 0;
    assert CountActive(after) == 0;
    assert LastWaiting(after) == Some(0);
  }
}

=== FILE: runner.dfy ===
/**
 * The log-line classifier of `YoutubeDlRunner`: four anchored,
 * case-insensitive patterns that keep the list of files a download produced.
 */
module Classifier {
  import opened Values
  import Text

  /** .NET's `.` matches every character except the line feed. */
  const NetNotDot: set<char> := {'\n'}

  const DownloadPrefix := "[download] Destination: "
  const AlreadyPrefix := "[download] "
  const AlreadySuffix := " has already been downloaded"
  const DeletePrefix := "Deleting original file "
  const DeleteSuffix := " (pass -k to keep)"
  const MergerPrefix := "[Merger] Merging formats into \""
  const MergerSuffix := "\""

  /** `^\[download\] Destination: (.+)$`, ignoring case. */
  function MatchDownload(line: string): Option<string> {
    Text.MatchBetween(line, DownloadPrefix, "", true, NetNotDot)
  }

  /** `^\[download\] (.+) has already been downloaded$`, ignoring case. */
  function MatchAlready(line: string): Option<string> {
    Text.MatchBetween(line, AlreadyPrefix, AlreadySuffix, true, NetNotDot)
  }

  /** `^Deleting original file (.+) \(pass -k to keep\)$`, ignoring case. */
  function MatchDelete(line: string): Option<string> {
    Text.MatchBetween(line, DeletePrefix, DeleteSuffix, true, NetNotDot)
  }

  /** `^\[Merger\] Merging formats into "(.+)"$`, ignoring case. */
  function MatchMerger(line: string): Option<string> {
    Text.MatchBetween(line, MergerPrefix, MergerSuffix, true, NetNotDot)
  }

  /** `List.IndexOf`: the first position holding `x`, or -1. */
  function IndexOf(xs: seq<string>, x: string): (i: int)
    ensures -1 <= i < |xs|
    ensures i == -1 <==> x !in xs
    ensures i >= 0 ==> xs[i] == x && x !in xs[..i]
  {
    if xs == [] then -1
    else if xs[0] == x then 0
    else
      var j := IndexOf(xs[1..], x);
      if j == -1 then -1
      else
        assert xs[..j + 1] == [xs[0]] + xs[1..][..j];
        j + 1
  }

  /** `List.Remove`: drops the first element equal to `x`; the list is unchanged when there is none. */
  function RemoveFirst(xs: seq<string>, x: string): (r: seq<string>)
    ensures x !in xs ==> r == xs
    ensures x in xs ==> var i := IndexOf(xs, x); r == xs[..i] + xs[i + 1..]
  {
    if xs == [] then []
    else if xs[0] == x then xs[1..]
    else
      var tail := xs[1..];
      var rest := RemoveFirst(tail, x);
      if x in tail then
        var j := IndexOf(tail, x);
        assert IndexOf(xs, x) == j + 1;
        assert xs[..j + 1] == [xs[0]] + tail[..j];
        assert xs[j + 2..] == tail[j + 1..];
        [xs[0]] + rest
      else
        [xs[0]] + rest
  }

  /** Exactly one copy of `x` leaves the list when there is one; the other elements keep their multiplicity. */
  lemma {:induction false} RemoveFirstMultiset(xs: seq<string>, x: string)
    ensures multiset(RemoveFirst(xs, x)) == multiset(xs) - multiset{x}
  {
    if xs != [] {
      assert xs == [xs[0]] + xs[1..];
      if xs[0] != x {
        RemoveFirstMultiset(xs[1..], x);
        assert RemoveFirst(xs, x) == [xs[0]] + RemoveFirst(xs[1..], x);
      }
    }
  }

  /**
   * The update of `Files` for one trimmed output line: the four patterns are
   * tried independently, in this order, and every one that matches acts.
   */
  function Classify(files: seq<string>, line: string): seq<string> {
    var f1 := match MatchDownload(line) case Some(x) => files + [x] case None => files;
    var f2 := match MatchAlready(line) case Some(x) => f1 + [x] case None => f1;
    var f3 := match MatchDelete(line) case Some(x) => RemoveFirst(f2, x) case None => f2;
    match MatchMerger(line) case Some(x) => f3 + [x] case None => f3
  }

  /** A pattern whose first character differs from the line's (ignoring case) does not match. */
  lemma FirstCharMismatch(line: string, prefix: string, suffix: string)
    requires |line| >= 1 && |prefix| >= 1 && Text.LowerAscii(line[0]) != Text.LowerAscii(prefix[0])
    ensures Text.MatchBetween(line, prefix, suffix, true, NetNotDot) == None
  {
  }

  /** The same, for a mismatch at the second character. */
  lemma SecondCharMismatch(line: string, prefix: string, suffix: string)
    requires |line| >= 2 && |prefix| >= 2 && Text.LowerAscii(line[1]) != Text.LowerAscii(prefix[1])
    ensures Text.MatchBetween(line, prefix, suffix, true, NetNotDot) == None
  {
  }

  /** A literal matches itself whatever the case setting. */
  lemma LiteralSelf(s: string)
    ensures Text.LiteralMatches(s, s, true)
  {
  }

  /** A line that starts with neither `[` nor `d`/`D` is ordinary log output and leaves `Files` alone. */
  lemma OrdinaryLineKeepsFiles(files: seq<string>, line: string)
    requires line == [] || (line[0] != '[' && Text.LowerAscii(line[0]) != 'd')
    ensures Classify(files, line) == files
  {
    if line != [] {
      FirstCharMismatch(line, DownloadPrefix, "");
      FirstCharMismatch(line, AlreadyPrefix, AlreadySuffix);
      FirstCharMismatch(line, DeletePrefix, DeleteSuffix);
      FirstCharMismatch(line, MergerPrefix, MergerSuffix);
    }
  }

  /** "[download] Destination: X" appends X right after the files already known. */
  lemma DestinationLineAppends(files: seq<string>, name: string)
    requires Text.DotPlus(name, NetNotDot)
    ensures var r := Classify(files, DownloadPrefix + name);
      |files| + 1 <= |r| <= |files| + 2 && r[..|files| + 1] == files + [name]
  {
    var line := DownloadPrefix + name;
    LiteralSelf(DownloadPrefix);
    LiteralSelf("");
    Text.MatchBetweenComplete(DownloadPrefix, name, "", DownloadPrefix, "", true, NetNotDot);
    assert DownloadPrefix + name + "" == line;
    FirstCharMismatch(line, DeletePrefix, DeleteSuffix);
    SecondCharMismatch(line, MergerPrefix, MergerSuffix);
  }

  /** "[download] X has already been downloaded" appends X last, after at most one other capture. */
  lemma AlreadyLineAppends(files: seq<string>, name: string)
    requires Text.DotPlus(name, NetNotDot)
    ensures var r := Classify(files, AlreadyPrefix + name + AlreadySuffix);
      |files| + 1 <= |r| <= |files| + 2 && r[..|files|] == files && r[|r| - 1] == name
  {
    var line := AlreadyPrefix + name + AlreadySuffix;
    LiteralSelf(AlreadyPrefix);
    LiteralSelf(AlreadySuffix);
    Text.MatchBetweenComplete(AlreadyPrefix, name, AlreadySuffix, AlreadyPrefix, AlreadySuffix, true, NetNotDot);
    FirstCharMismatch(line, DeletePrefix, DeleteSuffix);
    SecondCharMismatch(line, MergerPrefix, MergerSuffix);
  }

  /** "Deleting original file X (pass -k to keep)" removes the first X and nothing else. */
  lemma DeleteLineRemoves(files: seq<string>, name: string)
    requires Text.DotPlus(name, NetNotDot)
    ensures Classify(files, DeletePrefix + name + DeleteSuffix) == RemoveFirst(files, name)
  {
    var line := DeletePrefix + name + DeleteSuffix;
    LiteralSelf(DeletePrefix);
    LiteralSelf(DeleteSuffix);
    Text.MatchBetweenComplete(DeletePrefix, name, DeleteSuffix, DeletePrefix, DeleteSuffix, true, NetNotDot);
    FirstCharMismatch(line, DownloadPrefix, "");
    FirstCharMismatch(line, AlreadyPrefix, AlreadySuffix);
    FirstCharMismatch(line, MergerPrefix, MergerSuffix);
  }

  /** `[Merger] Merging formats into "X"` appends X and nothing else. */
  lemma MergerLineAppends(files: seq<string>, name: string)
    requires Text.DotPlus(name, NetNotDot)
    ensures Classify(files, MergerPrefix + name + MergerSuffix) == files + [name]
  {
    var line := MergerPrefix + name + MergerSuffix;
    LiteralSelf(MergerPrefix);
    LiteralSelf(MergerSuffix);
    Text.MatchBetweenComplete(MergerPrefix, name, MergerSuffix, MergerPrefix, MergerSuffix, true, NetNotDot);
    SecondCharMismatch(line, DownloadPrefix, "");
    SecondCharMismatch(line, AlreadyPrefix, AlreadySuffix);
    FirstCharMismatch(line, DeletePrefix, DeleteSuffix);
  }
}

/**
 * `YoutubeDlRunner`: one download job on the native side.  Processes are
 * abstract: spawning is an effect whose outcome (`Launch`) is a parameter,
 * exits and output lines are events delivered one at a time, and the
 * `Output`/`Ended` .NET events the runner raises are returned as a list.
 */
module Runner {
  import opened Values
  import Text
  import Arguments
  import Classifier

  /** The codes the runner and the native host report; they are not the downloader's own. */
  const Success := 0
  const Error := 253
  const JobCancelled := 254
  const JobNotFound := 255

  /** A process handle: none (never started, or disposed), running, or exited with a code. */
  datatype Proc = NoProc | Running | Exited(code: int)

  datatype Role = Primary | PostScript

  /** What the runner raises through its `Output` and `Ended` events. */
  datatype Event = Output(line: string) | Ended(exitCode: int)

  /** What the runner asks of the operating system. */
  datatype Effect =
    | CreateCookieJar
    | RemoveCookieJar
    | Spawn(role: Role, fileName: string, arguments: string)
    | KillTree(role: Role)

  /** How an attempt that may throw turned out: it worked, or it threw with a message. */
  datatype Launch = Launched | Failed(message: string)

  datatype Runner = Runner(
    jobId: int,
    props: Arguments.Props,
    files: seq<string>,
    primary: Proc,
    post: Proc,
    cancelled: bool)

  /** The result of one runner call: the new state with what it raised and asked for, or an exception. */
  datatype Outcome =
    | Done(runner: Runner, events: seq<Event>, effects: seq<Effect>)
    | Threw(message: string)

  const CancelledMessage := "Operation was cancelled"
  const AlreadyStartedMessage := "Already started"

  /** A runner as the host constructs it. */
  function NewRunner(jobId: int, props: Arguments.Props): (r: Runner)
    ensures r.jobId == jobId && r.props == props
    ensures r.files == [] && r.primary == NoProc && r.post == NoProc && !r.cancelled
  {
    Runner(jobId, props, [], NoProc, NoProc, false)
  }

  /** Events reach a subscriber only while the runner is not cancelled, because `Cancel` detaches them. */
  function Raise(r: Runner, events: seq<Event>): (delivered: seq<Event>)
    ensures r.cancelled ==> delivered == []
    ensures !r.cancelled ==> delivered == events
  {
    if r.cancelled then [] else events
  }

  /**
   * `Start`: refuses a cancelled or already started runner; otherwise creates
   * the cookie jar, spawns the downloader and always removes the jar.  If the
   * jar or the spawn throws, one error line and `Ended(253)` are raised.
   */
  function Start(r: Runner, expand: string -> string, combine: (string, string) -> string, cookieJar: Launch, launch: Launch): (o: Outcome)
    ensures r.cancelled ==> o == Threw(CancelledMessage)
    ensures !r.cancelled && r.primary != NoProc ==> o == Threw(AlreadyStartedMessage)
    ensures !r.cancelled && r.primary == NoProc ==>
      && o.Done?
      && |o.effects| >= 2 && o.effects[0] == CreateCookieJar && o.effects[|o.effects| - 1] == RemoveCookieJar
      && (cookieJar.Launched? <==> Spawn(Primary, expand(r.props.exePath.GetOr("")), Arguments.ToArguments(r.props, combine)) in o.effects)
      && o.runner == r.(primary := o.runner.primary)
      && (cookieJar.Launched? && launch.Launched? ==> o.runner.primary == Running && o.events == [])
      && (cookieJar.Failed? ==> o.runner.primary == NoProc && o.events == StartFailure(cookieJar.message))
      && (cookieJar.Launched? && launch.Failed? ==> o.runner.primary == NoProc && o.events == StartFailure(launch.message))
  {
    if r.cancelled then Threw(CancelledMessage)
    else if r.primary != NoProc then Threw(AlreadyStartedMessage)
    else if cookieJar.Failed? then
      Done(r, Raise(r, StartFailure(cookieJar.message)), [CreateCookieJar, RemoveCookieJar])
    else
      var spawn := Spawn(Primary, expand(r.props.exePath.GetOr("")), Arguments.ToArguments(r.props, combine));
      match launch
      case Launched => Done(r.(primary := Running), [], [CreateCookieJar, spawn, RemoveCookieJar])
      case Failed(m) => Done(r, Raise(r, StartFailure(m)), [CreateCookieJar, spawn, RemoveCookieJar])
  }

  /** The events of a failed start: exactly one error line, then `Ended(253)`. */
  function StartFailure(message: string): seq<Event> {
    [Output("Error starting youtube-dl process: " + message), Ended(Error)]
  }

  /** Each file wrapped in double quotes. */
  function Quote(files: seq<string>): (r: seq<string>)
    ensures |r| == |files|
    ensures forall i :: 0 <= i < |r| ==> r[i] == "\"" + files[i] + "\""
  {
    if files == [] then [] else ["\"" + files[0] + "\""] + Quote(files[1..])
  }

  /** The post-processing script's command line: the quoted files joined by single spaces. */
  function PostArguments(files: seq<string>): string {
    Text.Join(" ", Quote(files))
  }

  /**
   * `PostProcess`: refuses a cancelled runner; otherwise announces the
   * command, spawns the script and, if that throws, raises one error line and
   * `Ended(253)`.
   */
  function PostProcess(r: Runner, expand: string -> string, launch: Launch): (o: Outcome)
    ensures r.cancelled <==> o == Threw(CancelledMessage)
    ensures !r.cancelled ==>
      var fileName := expand(r.props.postProcessScript.GetOr(""));
      && o.Done? && o.effects == [Spawn(PostScript, fileName, PostArguments(r.files))]
      && o.runner == r.(post := o.runner.post)
      && 1 <= |o.events| && o.events[0] == Output("Starting post process with: " + fileName + " " + PostArguments(r.files))
      && (launch.Launched? ==> o.runner.post == Running && |o.events| == 1)
      && (launch.Failed? ==> o.runner.post == r.post && |o.events| == 3
                             && o.events[1] == Output("Error starting post process: " + launch.message) && o.events[2] == Ended(Error))
  {
    if r.cancelled then Threw(CancelledMessage)
    else
      var fileName := expand(r.props.postProcessScript.GetOr(""));
      var arguments := PostArguments(r.files);
      var announce := Output("Starting post process with: " + fileName + " " + arguments);
      var effects := [Spawn(PostScript, fileName, arguments)];
      match launch
      case Launched => Done(r.(post := Running), [announce], effects)
      case Failed(m) => Done(r, [announce, Output("Error starting post process: " + m), Ended(Error)], effects)
  }

  /** The code a disposed process handle yields: `process?.ExitCode ?? 1`. */
  function ObservedCode(p: Proc, code: int): int {
    if p == NoProc then 1 else code
  }

  /** The handle after its process exited; a disposed handle stays disposed. */
  function AfterExit(p: Proc, code: int): Proc {
    if p == NoProc then NoProc else Exited(code)
  }

  /**
   * The downloader exited with `code`.  A clean exit with a post-processing
   * script chains into `PostProcess`; anything else raises `Ended` with 0 for
   * a clean exit and 253 otherwise.  A disposed handle counts as code 1.
   */
  function PrimaryExited(r: Runner, code: int, expand: string -> string, launch: Launch): (o: Outcome)
    ensures var seen := ObservedCode(r.primary, code);
      && (seen == 0 && Arguments.Given(r.props.postProcessScript) ==>
            o == PostProcess(r.(primary := AfterExit(r.primary, code)), expand, launch))
      && (seen != 0 || !Arguments.Given(r.props.postProcessScript) ==>
            && o.Done? && o.effects == [] && o.runner == r.(primary := AfterExit(r.primary, code))
            && o.events == Raise(r, [Ended(if seen == 0 then Success else Error)]))
  {
    var exited := r.(primary := AfterExit(r.primary, code));
    var seen := ObservedCode(r.primary, code);
    if seen == 0 && Arguments.Given(r.props.postProcessScript) then PostProcess(exited, expand, launch)
    else Done(exited, Raise(r, [Ended(if seen == 0 then Success else Error)]), [])
  }

  /** The script exited: `Ended` carries its raw exit code (1 for a disposed handle), not the mapped 0/253. */
  function PostExited(r: Runner, code: int): (o: Outcome)
    ensures o.Done? && o.effects == []
    ensures o.runner == r.(post := AfterExit(r.post, code))
    ensures o.events == Raise(r, [Ended(ObservedCode(r.post, code))])
  {
    Done(r.(post := AfterExit(r.post, code)), Raise(r, [Ended(ObservedCode(r.post, code))]), [])
  }

  /**
   * The downloader wrote `data` on stdout or stderr.  A null or empty line is
   * dropped; any other line is trimmed, classified into `Files` and forwarded
   * once.
   */
  function PrimaryOutput(r: Runner, data: StrVal): (o: Outcome)
    ensures o.Done? && o.effects == []
    ensures !Arguments.Given(data) ==> o.runner == r && o.events == []
    ensures Arguments.Given(data) ==>
      && o.runner == r.(files := Classifier.Classify(r.files, Text.Trim(data.value)))
      && o.events == Raise(r, [Output(Text.Trim(data.value))])
  {
    if !Arguments.Given(data) then Done(r, [], [])
    else
      var line := Text.Trim(data.value);
      Done(r.(files := Classifier.Classify(r.files, line)), Raise(r, [Output(line)]), [])
  }

  /** The script wrote `data`: like downloader output, but `Files` is never touched. */
  function PostOutput(r: Runner, data: StrVal): (o: Outcome)
    ensures o.Done? && o.effects == [] && o.runner == r
    ensures !Arguments.Given(data) ==> o.events == []
    ensures Arguments.Given(data) ==> o.events == Raise(r, [Output(Text.Trim(data.value))])
  {
    if !Arguments.Given(data) then Done(r, [], []) else Done(r, Raise(r, [Output(Text.Trim(data.value))]), [])
  }

  /**
   * `Cancel`: the first call marks the runner cancelled, detaches its events
   * and kills whichever processes are still running; later calls do nothing.
   */
  function Cancel(r: Runner): (o: Outcome)
    ensures o.Done? && o.events == [] && o.runner == r.(cancelled := true)
    ensures r.cancelled ==> o.effects == []
    ensures !r.cancelled ==>
      && (KillTree(Primary) in o.effects <==> r.primary == Running)
      && (KillTree(PostScript) in o.effects <==> r.post == Running)
      && forall e :: e in o.effects ==> e.KillTree?
  {
    if r.cancelled then Done(r, [], [])
    else
      var kills := (if r.primary == Running then [KillTree(Primary)] else [])
                 + (if r.post == Running then [KillTree(PostScript)] else []);
      Done(r.(cancelled := true), [], kills)
  }

  /** `Dispose`: drops the downloader's handle. */
  function Dispose(r: Runner): (d: Runner)
    ensures d.primary == NoProc && d == r.(primary := NoProc)
  {
    r.(primary := NoProc)
  }

  /** Cancelling twice is cancelling once. */
  lemma CancelIdempotent(r: Runner)
    ensures var once := Cancel(r).runner; Cancel(once) == Done(once, [], [])
  {
  }

  /** Once cancelled, a runner raises nothing more, and `Start` and `PostProcess` throw. */
  lemma CancelledRunnerIsSilent(r: Runner, code: int, data: StrVal, expand: string -> string,
                                combine: (string, string) -> string, cookieJar: Launch, launch: Launch)
    requires r.cancelled
    ensures Start(r, expand, combine, cookieJar, launch).Threw?
    ensures PostProcess(r, expand, launch).Threw?
    ensures PrimaryOutput(r, data).events == []
    ensures PostOutput(r, data).events == []
    ensures PostExited(r, code).events == []
    ensures var o := PrimaryExited(r, code, expand, launch); o.Threw? || o.events == []
  {
  }

  /** A fresh runner always starts without throwing, and a started one refuses a second start. */
  lemma StartOnceOnly(jobId: int, props: Arguments.Props, expand: string -> string,
                      combine: (string, string) -> string, launch: Launch)
    ensures var o := Start(NewRunner(jobId, props), expand, combine, Launched, launch);
      && o.Done?
      && (launch.Launched? ==> Start(o.runner, expand, combine, Launched, launch) == Threw(AlreadyStartedMessage))
  {
  }

  /**
   * A clean exit that races with a cancel request: the handler chains into
   * `PostProcess`, which throws because the runner is cancelled.
   */
  lemma CancelledCleanExitThrows(r: Runner, expand: string -> string, launch: Launch)
    requires r.cancelled && r.primary == Running && Arguments.Given(r.props.postProcessScript)
    ensures PrimaryExited(r, 0, expand, launch) == Threw(CancelledMessage)
  {
  }

  /** Exit mapping: the reported code is 0 exactly for a clean exit, 253 otherwise, when no script follows. */
  lemma PrimaryExitMapping(r: Runner, code: int, expand: string -> string, launch: Launch)
    requires !r.cancelled && r.primary == Running && !Arguments.Given(r.props.postProcessScript)
    ensures var o := PrimaryExited(r, code, expand, launch);
      o.Done? && |o.events| == 1 && (o.events[0] == Ended(Success) <==> code == 0) && (o.events[0] == Ended(Error) <==> code != 0)
  {
  }
}

=== FILE: settings.dfy ===
/**
 * The settings the browser scripts keep in local storage: the executable
 * path, the concurrent-jobs limit, the cookie switch and the list of
 * parameter sets, the first of which is the default set.
 */
module Settings {
  import opened Values

  /**
   * A parameter set as stored.  Absent, `undefined` and `null` fields are all
   * `None`; `inheritDefault` is kept as a boolean when present.
   */
  datatype ParamSet = ParamSet(
    name: StrVal,
    icon: StrVal,
    saveIn: StrVal,
    format: StrVal,
    template: StrVal,
    customArgs: StrVal,
    postProcessScript: StrVal,
    inheritDefault: Option<bool>)

  /** A storage key: not written by an operation, written as `undefined`, or written with a value. */
  datatype Slot<T> = Unset | Undefined | Set(value: T)

  /** The keys an operation writes to local storage. */
  datatype Stored = Stored(exePath: Slot<string>, concurrentJobsLimit: Slot<int>, sendCookiesYoutube: Slot<bool>, props: seq<ParamSet>)

  const DefaultFormat := "bv+ba/best"
  const DefaultTemplate := "%(title)s-%(id)s.%(ext)s"
  const AudioFormat := "ba"

  /** The built-in default set of `initialSettings`. */
  const DefaultSet := ParamSet(Some("Default"), None, Some(""), Some(DefaultFormat), Some(DefaultTemplate), Some(""), None, Some(false))

  /** The built-in audio set: audio-only format, everything else inherited. */
  const AudioSet := ParamSet(Some("Audio"), None, None, Some(AudioFormat), None, None, None, Some(true))

  const InitialLimit := 1
  const InitialSendCookies := false

  /** `resetToDefaults`, run on a fresh install. */
  function ResetToDefaults(): (s: Stored)
    ensures s.exePath == Set("") && s.concurrentJobsLimit == Set(1) && s.sendCookiesYoutube == Set(false)
    ensures |s.props| == 2 && s.props[0].name == Some("Default") && s.props[1].name == Some("Audio")
    ensures s.props[0].inheritDefault == Some(false) && s.props[1].inheritDefault == Some(true)
  {
    Stored(Set(""), Set(InitialLimit), Set(InitialSendCookies), [DefaultSet, AudioSet])
  }
}

/**
 * `onUpdated` of the update script: settings written by version 1.1.2 or
 * earlier are converted into the current layout.
 */
module Updates {
  import opened Values
  import Text
  import opened Settings

  /** JavaScript `Number(s)` on a version component: a string of decimal digits (empty counts as 0), otherwise NaN (`None`). */
  function VersionNumber(s: string): (n: Option<nat>)
    ensures (forall i :: 0 <= i < |s| ==> Text.IsDigit(s[i])) <==> n.Some?
  {
    if forall i :: 0 <= i < |s| ==> Text.IsDigit(s[i]) then Some(Text.DigitsValue(s)) else None
  }

  /** `versionParts[0] === 1 && versionParts[1] === 1 && versionParts[2] <= 2`, with a missing part `undefined`. */
  function ShouldMigrate(previousVersion: string): bool {
    var parts := Text.Split(previousVersion, '.');
    |parts| >= 3
    && VersionNumber(parts[0]) == Some(1)
    && VersionNumber(parts[1]) == Some(1)
    && VersionNumber(parts[2]).Some? && VersionNumber(parts[2]).value <= 2
  }

  /** The decimal text of `n` reads back as `n`, and holds no dot. */
  lemma DecimalComponent(n: nat)
    ensures VersionNumber(Text.NatToDecimal(n)) == Some(n)
    ensures '.' !in Text.NatToDecimal(n)
  {
    var x := Text.NatToDecimal(n);
    assert forall i :: 0 <= i < |x| ==> Text.IsDigit(x[i]);
    Text.DecimalRoundTrip(n);
  }

  /** For a plain `a.b.c` version, migration runs exactly for 1.1.0 to 1.1.2. */
  lemma ShouldMigrateExactly(a: nat, b: nat, c: nat)
    ensures ShouldMigrate(Text.NatToDecimal(a) + "." + Text.NatToDecimal(b) + "." + Text.NatToDecimal(c))
            <==> a == 1 && b == 1 && c <= 2
  {
    DecimalComponent(a);
    DecimalComponent(b);
    DecimalComponent(c);
    Text.SplitThree(Text.NatToDecimal(a), Text.NatToDecimal(b), Text.NatToDecimal(c), '.');
  }

  /** A legacy switch set, as parsed from the stored JSON. */
  datatype SwitchSet = SwitchSet(name: StrVal, saveIn: StrVal, format: StrVal, iconUrl: StrVal)

  /** The legacy `addon` object. */
  datatype LegacyAddon = LegacyAddon(quickAudioFormat: StrVal, concurrentJobsLimit: Option<int>,
                                     sendCookiesYoutube: Option<bool>, switchSets: seq<SwitchSet>)

  /** The legacy `props` value: null, an array (already current), or the single legacy object. */
  datatype LegacyProps =
    | NoProps
    | PropsList(sets: seq<ParamSet>)
    | PropsObject(exePath: StrVal, saveIn: StrVal, format: StrVal, template: StrVal, customArgs: StrVal)

  /** `switchSet => ({name, saveIn, format, icon: iconUrl || null})`. */
  function ConvertSwitchSet(s: SwitchSet): (p: ParamSet)
    ensures p.name == s.name && p.saveIn == s.saveIn && p.format == s.format
    ensures p.icon == (if Truthy(s.iconUrl) then s.iconUrl else None)
    ensures p.template == None && p.customArgs == None && p.postProcessScript == None && p.inheritDefault == None
  {
    ParamSet(s.name, Or(s.iconUrl, None), s.saveIn, s.format, None, None, None, None)
  }

  function ConvertAll(sets: seq<SwitchSet>): (r: seq<ParamSet>)
    ensures |r| == |sets| && forall i :: 0 <= i < |r| ==> r[i] == ConvertSwitchSet(sets[i])
  {
    if sets == [] then [] else [ConvertSwitchSet(sets[0])] + ConvertAll(sets[1..])
  }

  /** `x || 1` for a stored number, 0 being falsy. */
  function LimitOrOne(v: Option<int>): (n: int)
    ensures v.Some? && v.value != 0 ==> n == v.value
    ensures v.None? || v.value == 0 ==> n == 1
  {
    if v.Some? && v.value != 0 then v.value else 1
  }

  /**
   * The migration.  With an `addon` object the limit, cookie switch, audio
   * format and switch sets come from it and `exePath` is not written; without
   * one `exePath` is cleared, cookies are off and the limit is read from a
   * misspelled field, so it is written as `undefined`.  A legacy props object
   * becomes the Default and Audio sets followed by the switch sets, and
   * supplies `exePath`; anything else is replaced by the two built-in sets.
   */
  function Migrate(addon: Option<LegacyAddon>, props: LegacyProps): (s: Stored)
    ensures |s.props| >= 2 && s.props[0].name == Some("Default") && s.props[1].name == Some("Audio")
    ensures s.props[0].inheritDefault == Some(false) && s.props[1].inheritDefault == Some(true)
    ensures Truthy(s.props[0].format) && Truthy(s.props[0].template)
    ensures addon.Some? ==> (s.concurrentJobsLimit == Set(LimitOrOne(addon.value.concurrentJobsLimit))
                             && s.sendCookiesYoutube == Set(addon.value.sendCookiesYoutube == Some(true)))
    ensures addon.None? ==> s.concurrentJobsLimit == Undefined && s.sendCookiesYoutube == Set(false)
    ensures props.PropsObject? ==> s.exePath == Set(OrEmpty(props.exePath))
    ensures !props.PropsObject? ==> s.exePath == (if addon.Some? then Unset else Set(""))
    ensures props.PropsObject? ==>
      && s.props[0] == ParamSet(Some("Default"), None, Some(OrEmpty(props.saveIn)), Or(props.format, Some(DefaultFormat)),
                                Or(props.template, Some(DefaultTemplate)), Some(OrEmpty(props.customArgs)), None, Some(false))
      && s.props[1] == AudioSet.(format := if addon.Some? then Or(addon.value.quickAudioFormat, Some(AudioFormat)) else Some(AudioFormat))
      && s.props[2..] == (if addon.Some? then ConvertAll(addon.value.switchSets) else [])
    ensures !props.PropsObject? ==> s.props == [DefaultSet, AudioSet]
  {
    var quickAudioFormat := if addon.Some? then Or(addon.value.quickAudioFormat, Some(AudioFormat)) else Some(AudioFormat);
    var switchSets := if addon.Some? then ConvertAll(addon.value.switchSets) else [];
    var limit: Slot<int> := if addon.Some? then Set(LimitOrOne(addon.value.concurrentJobsLimit)) else Undefined;
    var cookies := if addon.Some? then addon.value.sendCookiesYoutube == Some(true) else InitialSendCookies;
    var exePath: Slot<string> := if addon.Some? then Unset else Set("");
    match props
    case PropsObject(exe, saveIn, format, template, customArgs) =>
      var default := ParamSet(Some("Default"), None, Some(OrEmpty(saveIn)), Or(format, Some(DefaultFormat)),
                              Or(template, Some(DefaultTemplate)), Some(OrEmpty(customArgs)), None, Some(false));
      var audio := ParamSet(Some("Audio"), None, None, quickAudioFormat, None, None, None, Some(true));
      Stored(Set(OrEmpty(exe)), limit, Set(cookies), [default, audio] + switchSets)
    case _ => Stored(exePath, limit, Set(cookies), [DefaultSet, AudioSet])
  }

  /** Without a legacy props object, the audio format and switch sets of the `addon` object are dropped. */
  lemma AddonSettingsLostWithoutPropsObject(addon: LegacyAddon, sets: seq<ParamSet>)
    ensures Migrate(Some(addon), PropsList(sets)).props == [DefaultSet, AudioSet]
    ensures Migrate(Some(addon), NoProps).props == [DefaultSet, AudioSet]
  {
  }

  /** Migration and a fresh install agree on the parameter sets when there is nothing to carry over. */
  lemma MigrationMatchesFreshInstall()
    ensures Migrate(None, NoProps).props == ResetToDefaults().props
    ensures Migrate(None, NoProps).exePath == ResetToDefaults().exePath
    ensures Migrate(None, NoProps).concurrentJobsLimit != ResetToDefaults().concurrentJobsLimit
  {
  }
}

=== FILE: text.dfy ===
/**
 * String helpers shared by the native runner and the browser scripts:
 * .NET `String.Trim`, anchored literal patterns of the shape
 * `^prefix(.+)suffix$`, `lastIndexOf`, `String.Join`, and decimal
 * rendering / parsing of integers.
 */
module Text {
  import opened Values

  // ---------------------------------------------------------------------------
  // Whitespace and trimming

  /** The characters .NET `Char.IsWhiteSpace` accepts (Unicode Zs, Zl, Zp and the C0/C1 controls it names). */
  predicate IsWhiteSpace(c: char) {
    ('\t' <= c <= '\r') || c == ' ' || c == '\U{85}' || c == '\U{A0}' || c == '\U{1680}'
    || ('\U{2000}' <= c <= '\U{200A}') || c == '\U{2028}' || c == '\U{2029}'
    || c == '\U{202F}' || c == '\U{205F}' || c == '\U{3000}'
  }

  /** Drops the leading white space of `s`. */
  function TrimStart(s: string): (r: string)
    ensures |r| <= |s| && r == s[|s| - |r|..]
    ensures forall i :: 0 <= i < |s| - |r| ==> IsWhiteSpace(s[i])
    ensures r == [] || !IsWhiteSpace(r[0])
  {
    if s == [] || !IsWhiteSpace(s[0]) then s else TrimStart(s[1..])
  }

  /** Drops the trailing white space of `s`. */
  function TrimEnd(s: string): (r: string)
    ensures |r| <= |s| && r == s[..|r|]
    ensures forall i :: |r| <= i < |s| ==> IsWhiteSpace(s[i])
    ensures r == [] || !IsWhiteSpace(r[|r| - 1])
  {
    if s == [] || !IsWhiteSpace(s[|s| - 1]) then s else TrimEnd(s[..|s| - 1])
  }

  /** The characters of `s` outside `s[a..b]` all pass `cut`. */
  predicate CutOutside(s: string, a: nat, b: nat, cut: char -> bool)
    requires a <= b <= |s|
  {
    (forall i :: 0 <= i < a ==> cut(s[i])) && (forall i :: b <= i < |s| ==> cut(s[i]))
  }

  /** The cut-off ends of `s` around the slice `s[a..b]` are all white space. */
  predicate WhiteOutside(s: string, a: nat, b: nat)
    requires a <= b <= |s|
  {
    CutOutside(s, a, b, IsWhiteSpace)
  }

  /** `r` is the slice of `s` starting at `a`, with only white space outside it. */
  predicate WhiteCutAt(s: string, r: string, a: nat) {
    a + |r| <= |s| && r == s[a..a + |r|] && WhiteOutside(s, a, a + |r|)
  }

  /** Cutting a run off the front and then a run off the back leaves a slice with only those runs outside it. */
  lemma CutEnds(s: string, t: string, u: string, cut: char -> bool)
    requires |t| <= |s| && t == s[|s| - |t|..] && |u| <= |t| && u == t[..|u|]
    requires forall i :: 0 <= i < |s| - |t| ==> cut(s[i])
    requires forall i :: |u| <= i < |t| ==> cut(t[i])
    ensures var a := |s| - |t|; u == s[a..a + |u|] && CutOutside(s, a, a + |u|, cut)
  {
    var a := |s| - |t|;
    SliceOfSuffix(s, a, |u|);
    forall i | a + |u| <= i < |s|
      ensures cut(s[i])
    {
      assert s[i] == t[i - a];
    }
  }

  /** A prefix of a suffix is a slice. */
  lemma SliceOfSuffix(s: string, a: nat, n: nat)
    requires a + n <= |s|
    ensures s[a..][..n] == s[a..a + n]
  {
  }

  /**
   * Two slices of `s`, each with only `cut` characters outside it and neither
   * empty nor bounded by a `cut` character, are the same slice.
   */
  lemma CutUnique(s: string, a0: nat, b0: nat, a: nat, b: nat, cut: char -> bool)
    requires a0 <= b0 <= |s| && CutOutside(s, a0, b0, cut) && (a0 == b0 || (!cut(s[a0]) && !cut(s[b0 - 1])))
    requires a <= b <= |s| && CutOutside(s, a, b, cut) && (a == b || (!cut(s[a]) && !cut(s[b - 1])))
    ensures s[a0..b0] == s[a..b]
  {
    if a0 < b0 && a < b {
      assert a0 == a && b0 == b;
    } else if a0 < b0 {
      assert false;
    } else if a < b {
      assert false;
    }
  }

  /** .NET `String.Trim()`: a slice of `s` with only white space cut off either end, itself starting and ending with no white space. */
  function Trim(s: string): (r: string)
    ensures r == [] || (!IsWhiteSpace(r[0]) && !IsWhiteSpace(r[|r| - 1]))
    ensures exists a: nat :: WhiteCutAt(s, r, a)
  {
    var t := TrimStart(s);
    var u := TrimEnd(t);
    CutEnds(s, t, u, IsWhiteSpace);
    var a := |s| - |t|;
    assert WhiteCutAt(s, u, a);
    u
  }

  /**
   * Trimming is exactly "cut a white run off each end": any slice reached by
   * cutting only white space, which itself neither starts nor ends with white
   * space, is the trimmed string.
   */
  lemma TrimUnique(s: string, a: nat, b: nat)
    requires a <= b <= |s| && WhiteOutside(s, a, b)
    requires a == b || (!IsWhiteSpace(s[a]) && !IsWhiteSpace(s[b - 1]))
    ensures Trim(s) == s[a..b]
  {
    var r := Trim(s);
    var a0: nat :| WhiteCutAt(s, r, a0);
    WhiteCutUnique(s, r, a0, a, b);
  }

  /** A white-cut slice that neither starts nor ends with white space is determined by `s`. */
  lemma WhiteCutUnique(s: string, r: string, a0: nat, a: nat, b: nat)
    requires WhiteCutAt(s, r, a0) && (r == [] || (!IsWhiteSpace(r[0]) && !IsWhiteSpace(r[|r| - 1])))
    requires a <= b <= |s| && WhiteOutside(s, a, b)
    requires a == b || (!IsWhiteSpace(s[a]) && !IsWhiteSpace(s[b - 1]))
    ensures r == s[a..b]
  {
    if r != [] {
      assert r[0] == s[a0] && r[|r| - 1] == s[a0 + |r| - 1];
    }
    CutUnique(s, a0, a0 + |r|, a, b, IsWhiteSpace);
  }

  /** Trimming an already trimmed string changes nothing. */
  lemma TrimIdempotent(s: string)
    ensures Trim(Trim(s)) == Trim(s)
  {
    var t := Trim(s);
    assert TrimStart(t) == t;
    assert TrimEnd(t) == t;
  }

  // ---------------------------------------------------------------------------
  // Anchored literal patterns

  /** ASCII lower-casing; other characters are left alone. */
  function LowerAscii(c: char): char {
    if 'A' <= c <= 'Z' then (c as int + 32) as char else c
  }

  /** `s` equals the literal `lit`, ignoring ASCII case when `ignoreCase` is set. */
  predicate LiteralMatches(s: string, lit: string, ignoreCase: bool) {
    |s| == |lit| &&
    forall i :: 0 <= i < |s| ==> (if ignoreCase then LowerAscii(s[i]) == LowerAscii(lit[i]) else s[i] == lit[i])
  }

  /** `s` begins with the literal `lit`. */
  predicate StartsWith(s: string, lit: string) {
    |lit| <= |s| && s[..|lit|] == lit
  }

  /** `x` can be consumed by the regular-expression group `(.+)`, where `.` refuses the characters in `notDot`. */
  predicate DotPlus(x: string, notDot: set<char>) {
    |x| >= 1 && forall i :: 0 <= i < |x| ==> x[i] !in notDot
  }

  /**
   * The capture of the anchored pattern `^prefix(.+)suffix$` on `line`, or
   * `None` when the line does not match.  Because both literals have a fixed
   * length, the group is always the text between them.
   */
  function MatchBetween(line: string, prefix: string, suffix: string, ignoreCase: bool, notDot: set<char>): (r: Option<string>)
    ensures r.Some? ==>
      && |line| == |prefix| + |r.value| + |suffix|
      && line == line[..|prefix|] + r.value + line[|line| - |suffix|..]
      && LiteralMatches(line[..|prefix|], prefix, ignoreCase)
      && LiteralMatches(line[|line| - |suffix|..], suffix, ignoreCase)
      && DotPlus(r.value, notDot)
  {
    if |line| < |prefix| + |suffix| + 1 then None
    else
      var head := line[..|prefix|];
      var mid := line[|prefix|..|line| - |suffix|];
      var tail := line[|line| - |suffix|..];
      if LiteralMatches(head, prefix, ignoreCase) && LiteralMatches(tail, suffix, ignoreCase) && DotPlus(mid, notDot)
      then
        assert line == head + mid + tail;
        Some(mid)
      else None
  }

  /** Matched case-sensitively, the line is exactly the prefix, the group and the suffix. */
  lemma MatchBetweenExact(line: string, prefix: string, suffix: string, notDot: set<char>)
    ensures var r := MatchBetween(line, prefix, suffix, false, notDot);
      r.Some? ==> line == prefix + r.value + suffix
  {
    var r := MatchBetween(line, prefix, suffix, false, notDot);
    if r.Some? {
      assert line[..|prefix|] == prefix;
      assert line[|line| - |suffix|..] == suffix;
    }
  }

  /** Completeness: every way of writing the line as prefix, group and suffix is found, with that group. */
  lemma MatchBetweenComplete(p: string, x: string, s: string, prefix: string, suffix: string, ignoreCase: bool, notDot: set<char>)
    requires LiteralMatches(p, prefix, ignoreCase) && LiteralMatches(s, suffix, ignoreCase) && DotPlus(x, notDot)
    ensures MatchBetween(p + x + s, prefix, suffix, ignoreCase, notDot) == Some(x)
  {
    var line := p + x + s;
    assert line[..|prefix|] == p;
    assert line[|prefix|..|line| - |suffix|] == x;
    assert line[|line| - |suffix|..] == s;
  }

  // ---------------------------------------------------------------------------
  // Searching and joining

  /** JavaScript `s.lastIndexOf(c)`: the last position holding `c`, or -1. */
  function LastIndexOf(s: string, c: char): (r: int)
    ensures -1 <= r < |s|
    ensures r >= 0 ==> s[r] == c
    ensures forall j :: r < j < |s| ==> s[j] != c
  {
    if s == [] then -1
    else if s[|s| - 1] == c then |s| - 1
    else LastIndexOf(s[..|s| - 1], c)
  }

  /** .NET `String.Join(sep, xs)`. */
  function Join(sep: string, xs: seq<string>): string
  {
    if xs == [] then ""
    else if |xs| == 1 then xs[0]
    else xs[0] + sep + Join(sep, xs[1..])
  }

  /** The first position holding `c`; `c` must occur. */
  function FirstIndexOf(s: string, c: char): (i: nat)
    requires c in s
    ensures i < |s| && s[i] == c && c !in s[..i]
  {
    if s[0] == c then 0
    else
      var j := FirstIndexOf(s[1..], c);
      assert s[..j + 1] == [s[0]] + s[1..][..j];
      j + 1
  }

  /** JavaScript `s.split(sep)` for a one-character separator. */
  function Split(s: string, sep: char): (r: seq<string>)
    ensures |r| >= 1
    ensures forall i :: 0 <= i < |r| ==> sep !in r[i]
    decreases |s|
  {
    if sep !in s then [s]
    else
      var i := FirstIndexOf(s, sep);
      [s[..i]] + Split(s[i + 1..], sep)
  }

  /** Joining the pieces with the separator gives back the string. */
  lemma {:induction false} SplitJoin(s: string, sep: char)
    ensures Join([sep], Split(s, sep)) == s
    decreases |s|
  {
    if sep in s {
      var i := FirstIndexOf(s, sep);
      var rest := Split(s[i + 1..], sep);
      SplitJoin(s[i + 1..], sep);
      assert s == s[..i] + [sep] + s[i + 1..];
    }
  }

  /** A piece free of the separator, then the separator, is split off as the first element. */
  lemma SplitFirst(a: string, sep: char, b: string)
    requires sep !in a
    ensures Split(a + [sep] + b, sep) == [a] + Split(b, sep)
  {
    var s := a + [sep] + b;
    assert s[|a|] == sep;
    var i := FirstIndexOf(s, sep);
    assert s[..i][..|a|] == a;
    assert s[..i] == a;
    assert s[i + 1..] == b;
  }

  /** Three separator-free pieces joined by the separator split back into those pieces. */
  lemma SplitThree(x: string, y: string, z: string, sep: char)
    requires sep !in x && sep !in y && sep !in z
    ensures Split(x + [sep] + y + [sep] + z, sep) == [x, y, z]
  {
    var tail := y + [sep] + z;
    assert x + [sep] + y + [sep] + z == x + [sep] + tail;
    SplitFirst(x, sep, tail);
    SplitFirst(y, sep, z);
  }

  // ---------------------------------------------------------------------------
  // Decimal numbers

  predicate IsDigit(c: char) { '0' <= c <= '9' }

  function DigitChar(d: nat): char
    requires d < 10
  {
    ('0' as int + d) as char
  }

  function DigitValue(c: char): nat
    requires IsDigit(c)
  {
    c as int - '0' as int
  }

  /** The decimal digits of `n`, most significant first, with no leading zero. */
  function NatToDecimal(n: nat): (r: string)
    ensures |r| >= 1
    ensures forall i :: 0 <= i < |r| ==> IsDigit(r[i])
    ensures |r| > 1 ==> r[0] != '0'
  {
    if n < 10 then [DigitChar(n)] else NatToDecimal(n / 10) + [DigitChar(n % 10)]
  }

  /** The value of a string of decimal digits (0 for the empty string). */
  function DigitsValue(s: string): nat
    requires forall i :: 0 <= i < |s| ==> IsDigit(s[i])
  {
    if s == [] then 0 else 10 * DigitsValue(s[..|s| - 1]) + DigitValue(s[|s| - 1])
  }

  /** Reading back the digits `NatToDecimal` writes gives the number. */
  lemma {:induction false} DecimalRoundTrip(n: nat)
    ensures DigitsValue(NatToDecimal(n)) == n
  {
    var r := NatToDecimal(n);
    if n >= 10 {
      assert r[..|r| - 1] == NatToDecimal(n / 10);
      DecimalRoundTrip(n / 10);
    }
  }

  /** JavaScript `String(i)` for an integer. */
  function IntToString(i: int): string {
    if i < 0 then "-" + NatToDecimal(-i) else NatToDecimal(i)
  }

  /** JavaScript `s.padStart(2, '0')`. */
  function PadStart2(s: string): (r: string)
    ensures |s| >= 2 ==> r == s
    ensures |s| < 2 ==> |r| == 2 && r[2 - |s|..] == s && forall i :: 0 <= i < 2 - |s| ==> r[i] == '0'
  {
    if |s| == 0 then "00" else if |s| == 1 then "0" + s else s
  }
}

=== FILE: values.dfy ===
/**
 * Optional values and the JavaScript notion of a "falsy" string.
 *
 * The browser-side scripts keep most fields as strings that may also be
 * `null` or `undefined`; `StrVal` models such a field with `None` standing
 * for both, and `Truthy`/`Or`/`OrEmpty` model `!!x`, `x || y` and `x || ''`.
 */
module Values {

  datatype Option<+T> = None | Some(value: T) {

    /** Returns the value in `Some`, or `default` for `None`. */
    function GetOr(default: T): T {
      match this
      case Some(v) => v
      case None => default
    }
  }

  /** A JavaScript string field that may also be null or undefined (`None`). */
  type StrVal = Option<string>

  /** `!!v` for a string field: false for null, undefined and the empty string. */
  predicate Truthy(v: StrVal) {
    v.Some? && v.value != ""
  }

  /** JavaScript `a || b`: `a` when it is truthy, otherwise `b`. */
  function Or(a: StrVal, b: StrVal): (r: StrVal)
    ensures Truthy(a) ==> r == a
    ensures !Truthy(a) ==> r == b
  {
    if Truthy(a) then a else b
  }

  /** JavaScript `v || ''`: the string itself when truthy, otherwise "". */
  function OrEmpty(v: StrVal): (r: string)
    ensures Truthy(v) ==> r == v.value
    ensures r == "" <==> !Truthy(v)
  {
    if Truthy(v) then v.value else ""
  }
}
